=== FILE: README.md ===
# Order lifecycle of phpdemo_badcode, modelled in Dafny

This project models the order core of the `phpdemo_badcode` shop and proves properties of the model:

- the procedural order layer of `includes/functions.php`: order numbers, `processOrder`, `calculateTotal`, `updateOrderItems`, `confirmOrderWithAddress`, `getOrderDetails`, `searchOrders` and `bulkConfirmOrders`;
- the Eloquent `Order` model and the `orders` migration: the creating hook, column defaults, constraints, scopes and the cascade from users;
- `OrderPolicy`;
- the three form requests, run through a model of Laravel's validation loop;
- the administrator's order list and bulk-confirm gate;
- the customer controller's update and confirm flow, up to the order service;
- the string validators of `includes/validation.php`.

The database is an immutable `Store` value:

- `orders`: order rows in table order;
- `items`: `order_details` rows;
- `catalog`: a map from product number to product id and price;
- `users`: a map from user id to user;
- `nextId`: the next auto-increment id.

Each PHP function is a pure function from the store and its arguments to the new store and its reply. Every SQL statement is assumed to succeed unless a table constraint or a column's capacity refuses it. A refused statement makes `mysqli_query` return false, as mysqli does before PHP 8.1 or with error reporting turned off; the server runs in strict SQL mode, so an over-long value is refused rather than cut short. A refusal by the unique index or a foreign key still uses up the auto-increment id InnoDB handed out for the row. Money is integer cents, which is exact for decimal(10,2) columns. `time()` and `rand()` are parameters.

Module layout:

| file | module | models |
|---|---|---|
| text.dfy | Text | decimal digits, substrings (`LIKE '%q%'`), PHP `empty()` and `trim` on strings |
| utf8.dfy | Utf8 | UTF-8 bytes, i.e. what `strlen` and a pattern without the `u` modifier see |
| order_number.dfy | OrderNumber | `generateOrderNumber` and reading a number back |
| money.dfy | Money | the `decimal:2` cast as exact cents |
| store.dfy | Store | rows, the schema invariant `Valid`, and lookups |
| newest.dfy | Newest | `ORDER BY created_at DESC` / `latest()` with NULLs last |
| legacy.dfy, legacy_facts.dfy | Legacy, LegacyFacts | `includes/functions.php` and its properties |
| order_model.dfy | OrderModel | `Order::create`, the creating hook, the scopes, and user deletion |
| policy.dfy | Policy | `OrderPolicy` |
| rules.dfy | Rules | the validator's rule loop for the rules these requests use |
| requests.dfy | Requests | `UpdateOrderRequest`, `ConfirmOrderRequest`, `SearchOrdersRequest` |
| admin.dfy | Admin | the admin `OrderController` (`index`, `bulkConfirm`) |
| customer_orders.dfy | CustomerOrders | the customer `OrderController` (`update`, `confirm`) |
| validation.dfy | Validation | `includes/validation.php` |

In three places the code behaves differently from what a reader might expect; the model follows the code:

- `bulkConfirmOrders` counts every UPDATE that succeeds. An id that matches nothing, or an order already confirmed, still counts, so the count is the length of the list rather than the number of transitions.
- `confirmOrderWithAddress` does not look at the prior status. It answers 200 even when no order matches; only an address too long for its TEXT column, stored into a matching row, makes the UPDATE fail with 500.
- `processOrder` and `updateOrderItems` skip items whose product number is not in the catalog. They do not abort.

## Model

| member | source | states |
|---|---|---|
| OrderNumber.Generate | includes/functions.php:10-14 | a generated number starts with "ORD-" and is nine characters longer than the decimal time |
| OrderNumber.ParseGenerate | includes/functions.php:10-14 | the time and the random part can be read back from every generated number |
| OrderNumber.GenerateInjective | includes/functions.php:13 | two generated numbers are equal exactly when both the time and the random part are equal |
| OrderNumber.SuffixIsFourDigits | includes/functions.php:12-13 | the part after the last '-' is exactly four digits |
| OrderNumber.FitsColumn | database/migrations/2024_01_01_000003_create_orders_table.php:16 | a number generated from a clock of at most ten digits has at most 19 characters, which fits varchar(50) |
| Money.FormatCents | app/Models/Order.php:22-24 | the two-decimal text has a '.' before the last two digits, and a leading '-' exactly for negative amounts |
| Money.ParseFormat | app/Models/Order.php:22-24 | reading the two-decimal text back gives the same number of cents, so integer cents represent total_amount exactly |
| Store.FindByNumber | includes/functions.php:109-116 | the first row with the number is found; no earlier row has it; nothing is found exactly when no row has it |
| Store.FindByNumberUnique | database/migrations/2024_01_01_000003_create_orders_table.php:16 | with unique order numbers, the row found is the only row with that number |
| Store.DropItemsOfSpec | includes/functions.php:119-120 | deleting an order's details removes exactly its rows and keeps every other order's details in order |
| Legacy.DetailFor | includes/functions.php:64-74 | a detail row carries the catalog's product id and price, and its subtotal is price times quantity |
| Legacy.ResolveItems | includes/functions.php:52-77 | one detail per resolving item, never more rows than items, each with the catalog price and subtotal = price × quantity |
| Legacy.ProcessOrder | includes/functions.php:18-84 | no reply touches the users or the catalog; 400 leaves the store unchanged; 500 leaves it unchanged except that a number refused as a duplicate uses up one auto-increment id; 201 comes back exactly when the user exists, the items are non-empty and the orders table accepts the generated number, and 500 exactly when the user and items pass but the insert is refused; a success advances the next auto-increment id by one |
| LegacyFacts.ProcessOrderRejects | includes/functions.php:26-35 | code 400 comes exactly when the user is unknown or the item list is empty, and the store is unchanged |
| LegacyFacts.ProcessOrderCreates | includes/functions.php:18-84 | success appends one pending order whose id is the auto-increment value, which advances by one, with its owner, the generated number, a null address, no creation time, exactly the resolved items as details and their sum as total; earlier orders and their details, the users and the catalog are unchanged |
| LegacyFacts.ProcessOrderEmptyOrder | includes/functions.php:57-83 | when no product resolves, the order still exists with no details, total 0 and code 201 |
| LegacyFacts.ProcessOrderKeepsValid | includes/functions.php:41-48 | processOrder preserves the table invariant (unique ids and numbers, existing owner, seeded status) |
| Legacy.CalculateTotal | includes/functions.php:87-102 | the total is 0 when no item's product exists, and never negative when prices and quantities are not |
| LegacyFacts.ResolvedTotal | includes/functions.php:87-102 | the stored total (sum of inserted subtotals) equals calculateTotal of the same items |
| LegacyFacts.NothingResolves | includes/functions.php:57-62 | no detail rows are inserted exactly when no item resolves, and then the total is 0 |
| Legacy.UpdateOrderItems | includes/functions.php:105-152 | failure happens exactly when the number is unknown, gives 404 and changes nothing; success answers 200; either way the users, the catalog and the next auto-increment id are unchanged (the target and other rows are stated by UpdateTargetRow, UpdateOtherRows and UpdateOtherDetails) |
| LegacyFacts.UpdateTargetRow | includes/functions.php:115-151 | the order with the number gets exactly the resolved new items as its details (no old detail survives) and their sum as its total; the reply is 200 |
| LegacyFacts.UpdateOtherRows | includes/functions.php:115-151 | every order row without that number is left as it was, and no row is added or removed |
| LegacyFacts.UpdateOtherDetails | includes/functions.php:115-151 | under the unique order number, every order in the table with another number keeps exactly the details it had, in the same order |
| LegacyFacts.UpdateKeepsValid | includes/functions.php:118-149 | updateOrderItems preserves the table invariant |
| Legacy.ConfirmWhereNumber | includes/functions.php:159-161 | every row with the number gets status 2 and the address; every other row is unchanged |
| Legacy.ConfirmOrderWithAddress | includes/functions.php:155-168 | 500 with the store unchanged exactly when some order has the number and the address does not fit the 65,535-byte TEXT column; otherwise 200 "Order confirmed", whether or not a row matched |
| LegacyFacts.ConfirmSetsStatus | includes/functions.php:159-167 | with an address that fits, the matching order is confirmed with it whatever its prior status and other orders and all details are unchanged; an unknown number gives 200 and changes nothing whatever the address; an address that does not fit, for an order that exists, gives 500 and changes nothing |
| LegacyFacts.ReconfirmOverwritesAddress | includes/functions.php:159-160 | confirming an already confirmed order with an address that fits succeeds and replaces its address |
| LegacyFacts.ConfirmKeepsValid | includes/functions.php:159-161 | confirmOrderWithAddress preserves the table invariant |
| Legacy.GetOrderDetails | includes/functions.php:171-193 | null exactly when no order has the number; otherwise that order with exactly its detail rows |
| Legacy.LegacyMatch | includes/functions.php:200-206 | the where-clause on one joined row: owner and status rows exist and the text occurs in the number, first name or last name (stated through LegacyFilter and SearchSpec) |
| Legacy.LegacyFilter | includes/functions.php:200-206 | a row is kept exactly when its owner and status rows exist and the text occurs in its number, first name or last name |
| Legacy.LegacyFilterSubMultiset | includes/functions.php:200-206 | the joins are on primary keys, so the filtered rows are a sub-multiset of the table: no row comes back more often than it is there |
| Legacy.AttachItems | includes/functions.php:212-225 | each returned row carries exactly its own detail rows, in result order |
| Legacy.SearchOrders | includes/functions.php:196-228 | the result never has more rows than the orders table |
| LegacyFacts.SearchSpec | includes/functions.php:200-227 | the result holds exactly the matching orders, newest first, each with its details |
| LegacyFacts.SearchRowsOnce | includes/functions.php:200-227 | the orders of the result are a sub-multiset of the table, so each comes back at most as often as it is there (with SearchSpec: exactly the matching orders, none repeated) |
| LegacyFacts.EmptySearchReturnsAll | includes/functions.php:204-206 | on a valid store the empty text matches every order |
| LegacyFacts.EmailNotSearched | includes/functions.php:204-206 | for every store and text, an order whose number and owner's first and last names do not contain the text is not returned, whatever the owner's email holds |
| LegacyFacts.EmailIrrelevant | includes/functions.php:196-228 | changing any user's email never changes the search result |
| LegacyFacts.EmailNotSearchedExample | includes/functions.php:204-206 | an example: with "shop" only in the owner's email, the search finds nothing |
| Legacy.ConfirmWhereId | includes/functions.php:237 | the row with the id gets status 2; every other row is unchanged |
| Legacy.ConfirmedIds | includes/functions.php:231-245 | after the loop, exactly the rows whose id is listed have status 2; the rest are unchanged |
| Legacy.BulkConfirmOrders | includes/functions.php:231-245 | the count is the length of the list, the orders are as ConfirmedIds describes, and nothing else in the store changes |
| Legacy.ConfirmStep | includes/functions.php:235-242 | one more UPDATE in the loop confirms one more listed id |
| LegacyFacts.BulkConfirmEffect | includes/functions.php:235-242 | listed existing orders end confirmed, unlisted ones are unchanged, and the table invariant holds |
| LegacyFacts.BulkConfirmScenario | includes/functions.php:231-245 | for [pending A, confirmed B, missing id] the count is 3 |
| Newest.InsertRows | includes/functions.php:207 | an insertion step adds exactly the one row to the list |
| Newest.InsertSorted | includes/functions.php:207 | an insertion step keeps a newest-first list newest-first |
| Newest.SortNewestFirst | app/Http/Controllers/Admin/OrderController.php:40 | the result is newest first (NULL creation times last) and is a permutation of the input |
| Newest.SortKeepsRows | app/Http/Controllers/Admin/OrderController.php:40 | a row is in the sorted list exactly when it is in the input |
| OrderModel.NumberOnCreating | app/Models/Order.php:34-38 | a supplied number that is not PHP-empty is kept; otherwise a generated "ORD-" number is assigned |
| OrderModel.ZeroNumberReplaced | app/Models/Order.php:35 | a supplied "0" counts as empty and is replaced by a generated number |
| OrderModel.Create | database/migrations/2024_01_01_000003_create_orders_table.php:14-33 | an accepted insert appends exactly one row and advances the auto-increment; a refusal adds no row, and uses up one id unless the number was too long |
| OrderModel.CreateDefaults | database/migrations/2024_01_01_000003_create_orders_table.php:18-20 | an omitted status becomes 1, an omitted total 0 and an omitted address null; the id is fresh |
| OrderModel.CreateRejectsIff | database/migrations/2024_01_01_000003_create_orders_table.php:16-32 | the insert is refused exactly when the number is too long or taken, the owner is missing, or the status is not a seeded status row |
| OrderModel.GeneratedNumberFits | database/migrations/2024_01_01_000003_create_orders_table.php:16 | a generated number never exceeds the column width while the clock has at most ten digits |
| OrderModel.CreateKeepsValid | database/migrations/2024_01_01_000003_create_orders_table.php:14-33 | an insert, accepted or refused, preserves the table invariant |
| OrderModel.ScopePending | app/Models/Order.php:68-71 | exactly the orders with status 1 |
| OrderModel.ScopeConfirmed | app/Models/Order.php:76-79 | exactly the orders with status 2 |
| OrderModel.ScopesPartition | app/Models/Order.php:68-79 | the scopes share no row and together hold every order whose status is 1 or 2, each once |
| OrderModel.DeleteUser | database/migrations/2024_01_01_000003_create_orders_table.php:24-27 | the user is gone after deletion |
| OrderModel.OrdersNotOf | database/migrations/2024_01_01_000003_create_orders_table.php:24-27 | the orders left are exactly those of other users |
| OrderModel.DeleteUserCascades | database/migrations/2024_01_01_000003_create_orders_table.php:24-27 | deleting a user removes exactly that user's orders, keeps all others, and preserves the table invariant |
| Policy.CanView | app/Policies/OrderPolicy.php:14-18 | `view`: the owner or an administrator (stated by ViewTruthTable) |
| Policy.CanUpdate | app/Policies/OrderPolicy.php:23-28 | `update`: the owner, while the order is pending (stated by UpdateTruthTable) |
| Policy.CanConfirm | app/Policies/OrderPolicy.php:33-38 | `confirm`: the owner, while the order is pending (stated by SameAsUpdate) |
| Policy.CanDelete | app/Policies/OrderPolicy.php:43-48 | `delete`: the owner, while the order is pending (stated by SameAsUpdate) |
| Policy.ViewTruthTable | app/Policies/OrderPolicy.php:14-18 | view holds exactly for the owner or an administrator |
| Policy.UpdateTruthTable | app/Policies/OrderPolicy.php:23-28 | update holds exactly for the owner of a pending order; the admin flag changes nothing |
| Policy.SameAsUpdate | app/Policies/OrderPolicy.php:33-48 | confirm and delete have exactly the truth table of update |
| Policy.ConfirmedIsFrozen | app/Policies/OrderPolicy.php:23-48 | no user may update, confirm or delete a confirmed order |
| Policy.UpdateImpliesView | app/Policies/OrderPolicy.php:14-28 | whoever may update an order may view it |
| Policy.AdminViewsOnly | app/Policies/OrderPolicy.php:14-48 | an administrator who does not own the order may view it but may not update, confirm or delete it |
| Rules.Validatable | app/Http/Requests/UpdateOrderRequest.php:24-41 | the validator's gate per attribute: a rule runs when the value is present or the rule is implicit, and not on a blank value of a nullable attribute (stated through CheckAll) |
| Rules.Holds | app/Http/Requests/UpdateOrderRequest.php:24-41 | each rule's own test: required, array, integer, string, min, max, exists and a pattern (stated through CheckAll and the closed forms below) |
| Rules.NonEmptyArrayRulesIff | app/Http/Requests/UpdateOrderRequest.php:25-29 | `required, array, min:1` passes exactly on a non-empty array |
| Rules.ExistingIdRulesIff | app/Http/Requests/UpdateOrderRequest.php:30-34 | `required, integer, exists` passes exactly on an integer that is one of the column's values |
| Requests.UpdateOrderRequest | app/Http/Requests/UpdateOrderRequest.php:12-15 | the request is unauthorized exactly when nobody is logged in |
| Requests.QuantityRulesIff | app/Http/Requests/UpdateOrderRequest.php:35-40 | a quantity passes exactly when it is an integer from 1 to 999 |
| Requests.UpdateAcceptsIff | app/Http/Requests/UpdateOrderRequest.php:24-41 | the request passes exactly for a logged-in user with a non-empty products array whose every entry has an existing integer product id and a quantity in 1..999 |
| Requests.ConfirmOrderRequest | app/Http/Requests/ConfirmOrderRequest.php:12-15 | the request is unauthorized exactly when nobody is logged in |
| Requests.ValidatedEntry | app/Http/Controllers/OrderController.php:110 | a validated products entry keeps exactly those of its keys that carry rules (product_id and quantity), with their values |
| Requests.ValidatedProducts | app/Http/Controllers/OrderController.php:110 | `validated()['products']` has the shape of the products sent, each entry cut down to its rule keys |
| Requests.ValidatedProductsExact | app/Http/Controllers/OrderController.php:110 | after a passed request the products handed on are a non-empty array whose entries have exactly product_id and quantity, an existing product and a quantity in 1..999 |
| Requests.ConfirmAcceptsIff | app/Http/Requests/ConfirmOrderRequest.php:24-31 | the address passes exactly when it is a non-blank string of 10 to 1000 characters |
| Requests.SearchOrdersRequest | app/Http/Requests/SearchOrdersRequest.php:12-15 | the request is unauthorized exactly when the actor is not a logged-in administrator |
| Requests.SearchAcceptsIff | app/Http/Requests/SearchOrdersRequest.php:24-31 | the request passes exactly when search is absent, null, blank, or at most 100 characters whose every UTF-8 byte is in the byte class |
| Requests.AcceptedSearchIsLiteral | app/Http/Requests/SearchOrdersRequest.php:29 | an accepted search holds no '%', '_', quote or backslash, so the LIKE patterns built from it are literal substring tests |
| Requests.ThaiSaraERejected | app/Http/Requests/SearchOrdersRequest.php:29 | the Thai letter U+0E40 is refused, although it lies inside ก-๙ |
| Requests.LatinAccentAccepted | app/Http/Requests/SearchOrdersRequest.php:29 | U+00E9, which is neither ASCII nor Thai, is accepted |
| Requests.SearchOrdersRequestIntended | app/Http/Requests/SearchOrdersRequest.php:12-15 | with the corrected pattern, the request is still unauthorized exactly for non-administrators |
| Requests.IntendedSearchAcceptsIff | app/Http/Requests/SearchOrdersRequest.php:24-31 | with the corrected pattern, the request passes exactly when search is absent, null, blank, or at most 100 characters from the intended character class |
| Requests.IntendedAcceptsThai | app/Http/Requests/SearchOrdersRequest.php:29 | with the corrected pattern, every Thai text of 1..100 characters from U+0E01..U+0E59 is accepted |
| Requests.IntendedRejectsLatinAccent | app/Http/Requests/SearchOrdersRequest.php:29 | with the corrected pattern, U+00E9 is refused |
| Requests.SearchGatesAgreeOnAscii | app/Http/Requests/SearchOrdersRequest.php:29 | for an absent, null or ASCII search the as-written and the corrected pattern give the same verdict |
| Requests.IntendedSearchIsLiteral | app/Http/Requests/SearchOrdersRequest.php:29 | with the corrected pattern, an accepted search also holds no LIKE wildcard, quote or backslash |
| Admin.AdminMatch | app/Http/Controllers/Admin/OrderController.php:30-37 | the where-clause on one order: the text occurs in its number, or its owner exists and the text occurs in their first name, last name or email (stated through AdminFilter) |
| Admin.Truthy | app/Http/Controllers/Admin/OrderController.php:28 | `if ($search)`: null, "" and "0" are false (stated through NoSearchListsAll and ZeroSearchListsAll) |
| Admin.AdminFilter | app/Http/Controllers/Admin/OrderController.php:30-37 | a row is kept exactly when the text occurs in its number, or its owner exists and the text occurs in their first name, last name or email |
| Admin.ListOrders | app/Http/Controllers/Admin/OrderController.php:24-40 | the rendered list is newest first and holds every order, or when the search is truthy exactly the matching orders |
| Admin.Index | app/Http/Controllers/Admin/OrderController.php:22-43 | denied, with the request's verdict, exactly when the search request as written fails; otherwise newest first with every order, or when the search is truthy exactly the matching ones |
| Admin.IndexIntended | app/Http/Controllers/Admin/OrderController.php:22-43 | the same page behind the corrected search pattern: denied exactly when the corrected request fails |
| Admin.IndexesAgreeOnAscii | app/Http/Controllers/Admin/OrderController.php:22 | for an absent, null or ASCII search both controllers give the same page |
| Admin.IndexesDisagree | app/Http/Controllers/Admin/OrderController.php:22 | as written, an administrator searching "é" gets a list and one searching U+0E40 gets a validation error; corrected, the opposite |
| Admin.NoSearchListsAll | app/Http/Controllers/Admin/OrderController.php:26-40 | without a truthy search, the list is every order, each exactly once |
| Admin.ZeroSearchListsAll | app/Http/Controllers/Admin/OrderController.php:28 | searching for "0" lists every order, because "0" is falsy in PHP |
| Admin.FilteredWithinAll | app/Http/Controllers/Admin/OrderController.php:28-40 | the list for any search is a sub-multiset of the orders table, so no order appears twice and the filtered list lies within the unfiltered one |
| Admin.LegacyMatchIsAdminMatch | app/Http/Controllers/Admin/OrderController.php:30-37 | every order the procedural search matches is also matched by the admin search |
| Admin.OrderIdsIff | app/Http/Controllers/Admin/OrderController.php:60 | an id exists in the orders table exactly when some order row has it |
| Admin.BulkConfirm | app/Http/Controllers/Admin/OrderController.php:48-74 | a failed validation leaves the store unchanged; a passed one reports exactly the store and count the service returns |
| Admin.BulkConfirmIff | app/Http/Controllers/Admin/OrderController.php:51-65 | the service runs exactly when order_ids is a non-empty array of integers that all name existing orders |
| Admin.EmptyIdsRejected | app/Http/Controllers/Admin/OrderController.php:52-56 | a missing or empty order_ids never reaches the service and changes nothing |
| CustomerOrders.Update | app/Http/Controllers/OrderController.php:100-121 | unauthorized gives 403, invalid 422, an unknown number 404, a refusing policy 403; a passed request from the owner of the pending order redirects after the service ran on that order with the validated products; nothing else redirects |
| CustomerOrders.Confirm | app/Http/Controllers/OrderController.php:141-162 | unauthorized gives 403, invalid 422, an unknown number 404, a refusing policy 403; a passed request from the owner of the pending order redirects after the service ran on that order with the sent address; nothing else redirects |
| CustomerOrders.GuardedConfirmedIsFrozen | app/Http/Controllers/OrderController.php:100-162 | for a confirmed order, update and confirm leave the store unchanged for every actor, body and service |
| Utf8.StrLen | includes/validation.php:9 | PHP `strlen`: the number of UTF-8 bytes, which equals the number of characters on ASCII text (stated by AsciiStrLen) |
| Utf8.AsciiEncode | app/Http/Requests/SearchOrdersRequest.php:29 | on ASCII text the UTF-8 bytes are the characters' own codes, one byte each |
| Validation.ValidateEmail | includes/validation.php:8-13 | `validateEmail`: more than five bytes and an '@' byte (stated by EmailIff) |
| Validation.AtByteIffAtChar | includes/validation.php:9 | the '@' byte occurs in the UTF-8 text exactly when the '@' character occurs |
| Validation.EmailIff | includes/validation.php:8-13 | an email passes exactly when it is longer than five bytes and contains '@' |
| Validation.EmailAscii | includes/validation.php:8-13 | on ASCII text, an email passes exactly when it is longer than five characters and contains '@' |
| Validation.FiveByteEmailRejected | includes/validation.php:9 | "a@b.c" is refused |
| Validation.ValidatePassword | includes/validation.php:16-21 | `validatePassword`: at least three bytes (stated by PasswordBound) |
| Validation.PasswordBound | includes/validation.php:16-21 | every three-character password passes; on ASCII, three characters are also necessary |
| Validation.OneThaiCharPassword | includes/validation.php:17 | a single Thai character (three bytes) is a valid password |
| Validation.ValidatePhone | includes/validation.php:24-26 | `validatePhone`: `!empty()` (stated by PhoneRejectsExactly) |
| Validation.ValidateName | includes/validation.php:29-31 | `validateName`: `!empty()` and a positive byte length (stated by NameIsPhone) |
| Validation.NotEmpty | includes/validation.php:34-36 | `notEmpty`: set and not equal to '' (stated by NotEmptyVersusName) |
| Validation.PhoneRejectsExactly | includes/validation.php:24-26 | among strings, the phone check refuses exactly "" and "0" |
| Validation.NameIsPhone | includes/validation.php:29-31 | the name check equals the phone check on every input; its strlen conjunct is redundant |
| Validation.NotEmptyVersusName | includes/validation.php:29-36 | notEmpty and validateName disagree on exactly one input, "0" |

## Findings

| source | as written | input that shows it | evidently intended | confidence | as-written member | corrected member |
|---|---|---|---|---|---|---|
| app/Http/Requests/SearchOrdersRequest.php:29 | the pattern has no `u` modifier, so PCRE reads `ก-๙` as the byte range 0x81..0xE0 plus single bytes | "เ" (U+0E40, bytes E0 B9 80) is refused; "é" (U+00E9, bytes C3 A9) is accepted | the class ranges over characters: ASCII letters and digits, Thai U+0E01..U+0E59, ASCII whitespace, '-', '@', '.' | high (not executed) | Requests.ThaiSaraERejected | Requests.IntendedAcceptsThai |

Every Thai character from U+0E40 to U+0E59 ends in a byte from 0x80 to 0x99. Only 0x80 falls outside the byte range, so U+0E40 (SARA E, which begins many Thai words) is the Thai character that is turned away. `Admin.Index` gates on the request as written, `Requests.SearchOrdersRequest`. `Admin.IndexIntended` is the same page behind the corrected request, `Requests.SearchOrdersRequestIntended`. `Admin.IndexesDisagree` shows both inputs above through the two controllers, and `Admin.IndexesAgreeOnAscii` shows the two agree on every ASCII search.

## Left out

- SQL injection, `LIKE` case folding and collation. Matching is a literal, case-sensitive substring test, and text is placed into the statements as a value.
- Legacy.ConfirmOrderWithAddress: an address or number holding a quote changes the statement's text, so its 500 reply (a syntax error) or the injected statement's effect is not modelled; only the column-capacity failure is.
- Legacy.ProcessOrder: from PHP 8.1 mysqli throws `mysqli_sql_exception` on a refused statement instead of returning false, so the code's 500 branch is not reached and the request fails with an uncaught exception; the model follows the return-false behaviour.
- Legacy.ConfirmOrderWithAddress: the same PHP 8.1 caveat applies to its 500 branch. Its over-long-address failure also needs strict SQL mode: `config/db.php` sets no `sql_mode`, and without strict mode MySQL truncates the address with a warning and the code answers 200.
- The mysqli plumbing and statement failures the code does not check. Detail inserts and total updates are taken to succeed; a failed `bulkConfirmOrders` UPDATE (for example a non-integer id) is not modelled.
- Legacy.BulkConfirmOrders: does not model a failing UPDATE, so its count is always the length of the list.
- Legacy.ProcessOrder: does not model a non-array `items` argument; the items are a sequence.
- Legacy.UpdateOrderItems: each entry of `items` (as in Legacy.ProcessOrder) is assumed to carry a string `product_number` and an integer `quantity` (`ItemInput`). Two kinds of entry are not representable. One is an entry missing a key: PHP warns and interpolates an empty value into the SQL text. The other is a non-numeric quantity string, which raises a `TypeError` in `$price * $qty` under PHP 8.
- Floating-point money. PHP multiplies float prices, while the model multiplies integer cents.
- The decimal(10,2) range of totals and subtotals. No operation checks it, and an out-of-range total is not modelled.
- Transactions and concurrency. The procedural layer has none; each function is one atomic transition, and intermediate states (an order with total 0 before its details) are not modelled.
- `public/*.php`, Blade views, authentication controllers, listeners, middleware, `DashboardController`, seeders and factories. These are I/O, UI or test data.
- Laravel's global input middleware (trimming strings, turning "" into null). The requests and `Admin.Index` see the input as sent.
- Rules.IntLiteral: PHP's integer filter also trims surrounding whitespace and refuses values outside the 64-bit range; neither is modelled.
- JSON booleans and floats. The `Value` type has strings, integers, null, lists and records only, while PHP's integer filter also accepts `true` (as 1) and whole floats such as `2.0`.
- Requests.UpdateAcceptsIff: its "exactly when" ranges over the modelled values; a `true` product id or a `2.0` quantity that the source accepts is not representable.
- Requests.QuantityRulesIff: the same restriction; a whole JSON float quantity is not representable.
- Rules.ExistingIdRulesIff: the same restriction; a `true` or whole-float id is not representable.
- Admin.BulkConfirmIff: the same restriction on the elements of `order_ids`.
- Rules.Size: a numeric string that is not an integer literal ("1.5") is measured by its length. That only matters when the `integer` rule has already failed.
- `App\Services\OrderService` is not part of this model. The controllers take it as a parameter, so service exceptions, and the rollback on an unknown product that its unit tests expect, are not modelled.
- The `order_details` foreign key and its cascade. That migration is not part of this model.
- The customer `OrderController`'s `index`, `create`, `store`, `show`, `edit` and `showConfirmForm`, which only read data or render forms.
- Policy: the strict `===` comparisons assume the ids and status arrive as integers.

=== FILE: admin.dfy ===
/** The administrator's `OrderController`: the order list with its optional
    search (as written, and behind the corrected search pattern), and the
    bulk confirmation gate in front of the order service.
    The service itself is not part of this model; it is a parameter. */
module Admin {
  import opened Text
  import opened Store
  import opened Newest
  import opened Rules
  import opened Requests
  import Utf8
  import Legacy

  /** The search's where-clause on one order: the text occurs in the order
      number, or the owner exists (`orWhereHas('user')`) and the text occurs
      in their first name, last name or email. */
  predicate AdminMatch(s: Store, o: Order, q: string) {
    || Contains(o.number, q)
    || (&& o.userId in s.users
        && (|| Contains(s.users[o.userId].firstName, q)
            || Contains(s.users[o.userId].lastName, q)
            || Contains(s.users[o.userId].email, q)))
  }

  function AdminFilter(s: Store, orders: seq<Order>, q: string): (r: seq<Order>)
    ensures forall o :: o in r <==> o in orders && AdminMatch(s, o, q)
    decreases |orders|
  {
    if |orders| == 0 then []
    else if AdminMatch(s, orders[0], q) then [orders[0]] + AdminFilter(s, orders[1..], q)
    else AdminFilter(s, orders[1..], q)
  }

  /** `$request->input('search')` once the request has passed: a string, or null. */
  function SearchInput(body: map<string, Value>): Option<string> {
    if "search" in body && body["search"].Str? then Some(body["search"].s) else None
  }

  /** PHP truthiness of the search input: null, "" and "0" are false. */
  predicate Truthy(q: Option<string>) {
    q.Some? && !PhpEmpty(q.value)
  }

  datatype IndexResult = Denied(verdict: Verdict) | Listing(rows: seq<Order>)

  /** The list `index` renders once the request has passed: every order, or
      the matching ones when the search is truthy, newest first. */
  function ListOrders(s: Store, body: map<string, Value>): (rows: seq<Order>)
    ensures NewestFirst(rows)
    ensures var q := SearchInput(body);
            forall o :: o in rows <==> o in s.orders && (!Truthy(q) || AdminMatch(s, o, q.value))
  {
    var q := SearchInput(body);
    var rows := if Truthy(q) then AdminFilter(s, s.orders, q.value) else s.orders;
    var sorted := SortNewestFirst(rows);
    assert forall o :: o in sorted <==> o in rows by {
      forall o ensures o in sorted <==> o in rows { SortKeepsRows(rows, o); }
    }
    sorted
  }

  /** `index`: the search request as written gates the list. */
  function Index(actor: Option<User>, s: Store, body: map<string, Value>): (r: IndexResult)
    ensures r.Denied? <==> SearchOrdersRequest(actor, body) != Passed
    ensures r.Denied? ==> r.verdict == SearchOrdersRequest(actor, body)
    ensures r.Listing? ==> NewestFirst(r.rows)
    ensures r.Listing? ==>
              var q := SearchInput(body);
              forall o :: o in r.rows <==> o in s.orders && (!Truthy(q) || AdminMatch(s, o, q.value))
  {
    var verdict := SearchOrdersRequest(actor, body);
    if verdict != Passed then Denied(verdict) else Listing(ListOrders(s, body))
  }

  /** `index` behind the corrected search pattern. */
  function IndexIntended(actor: Option<User>, s: Store, body: map<string, Value>): (r: IndexResult)
    ensures r.Denied? <==> SearchOrdersRequestIntended(actor, body) != Passed
    ensures r.Denied? ==> r.verdict == SearchOrdersRequestIntended(actor, body)
    ensures r.Listing? ==> NewestFirst(r.rows)
    ensures r.Listing? ==>
              var q := SearchInput(body);
              forall o :: o in r.rows <==> o in s.orders && (!Truthy(q) || AdminMatch(s, o, q.value))
  {
    var verdict := SearchOrdersRequestIntended(actor, body);
    if verdict != Passed then Denied(verdict) else Listing(ListOrders(s, body))
  }

  /** For an absent, null or ASCII search both controllers give the same page. */
  lemma IndexesAgreeOnAscii(actor: Option<User>, s: Store, body: map<string, Value>)
    requires "search" in body && body["search"].Str? ==> Utf8.IsAscii(body["search"].s)
    ensures Index(actor, s, body) == IndexIntended(actor, s, body)
  {
    SearchGatesAgreeOnAscii(actor, body);
  }

  /** As written, an administrator searching "é" gets a list and one
      searching the Thai letter U+0E40 gets a validation error; the
      corrected controller does the opposite. */
  lemma IndexesDisagree(admin: User, s: Store)
    requires admin.isAdmin
    ensures Index(Some(admin), s, map["search" := Str("\U{00E9}")]).Listing?
    ensures IndexIntended(Some(admin), s, map["search" := Str("\U{00E9}")]) == Denied(Invalid)
    ensures Index(Some(admin), s, map["search" := Str("\U{0E40}")]) == Denied(Invalid)
    ensures IndexIntended(Some(admin), s, map["search" := Str("\U{0E40}")]).Listing?
  {
    LatinAccentAccepted(admin);
    IntendedRejectsLatinAccent(admin);
    ThaiSaraERejected(admin);
    IntendedAcceptsThai(Some(admin), "\U{0E40}");
  }

  lemma {:induction false} FilterSubMultiset(s: Store, orders: seq<Order>, q: string)
    ensures multiset(AdminFilter(s, orders, q)) <= multiset(orders)
    decreases |orders|
  {
    if |orders| > 0 {
      FilterSubMultiset(s, orders[1..], q);
      assert orders == [orders[0]] + orders[1..];
    }
  }

  /** Without a truthy search the list is every order, each exactly once. */
  lemma NoSearchListsAll(actor: Option<User>, s: Store, body: map<string, Value>)
    requires Index(actor, s, body).Listing?
    requires !Truthy(SearchInput(body))
    ensures multiset(Index(actor, s, body).rows) == multiset(s.orders)
  {
  }

  /** A search for "0" is falsy in PHP, so it lists every order. */
  lemma ZeroSearchListsAll(admin: User, s: Store)
    requires admin.isAdmin
    ensures var r := Index(Some(admin), s, map["search" := Str("0")]);
            r.Listing? && multiset(r.rows) == multiset(s.orders)
  {
    var body := map["search" := Str("0")];
    SearchAcceptsIff(Some(admin), body);
    assert Utf8.Encode("0") == [0x30];
  }

  /** Any list, filtered or not, shows each order at most once and nothing
      else: it is a sub-multiset of the table, which the unfiltered list
      equals. */
  lemma FilteredWithinAll(s: Store, body: map<string, Value>)
    ensures multiset(ListOrders(s, body)) <= multiset(s.orders)
  {
    var q := SearchInput(body);
    if Truthy(q) {
      FilterSubMultiset(s, s.orders, q.value);
    }
  }

  /** Every row the procedural `searchOrders` returns for a text is also
      matched by the administrator's search, which adds the email column and
      does not require the status row. */
  lemma LegacyMatchIsAdminMatch(s: Store, o: Order, q: string)
    ensures Legacy.LegacyMatch(s, o, q) ==> AdminMatch(s, o, q)
  {
  }

  // ---------------------------------------------------------------------
  // bulkConfirm

  const ORDER_IDS_RULES: seq<Rule> := [Required, IsArray, Min(1)]

  /** The ids in the `orders` table. */
  function OrderIds(orders: seq<Order>): set<int> {
    set k | 0 <= k < |orders| :: orders[k].id
  }

  lemma OrderIdsIff(orders: seq<Order>, id: int)
    ensures id in OrderIds(orders) <==> IdTaken(orders, id)
  {
    if IdTaken(orders, id) {
      var k :| 0 <= k < |orders| && orders[k].id == id;
      assert orders[k].id in OrderIds(orders);
    }
  }

  function OrderIdRules(s: Store): seq<Rule> {
    [Required, IsInteger, Exists(OrderIds(s.orders))]
  }

  /** The controller's inline validation of `order_ids` and `order_ids.*`. */
  predicate BulkInputValid(s: Store, body: map<string, Value>) {
    var ids := Field(body, "order_ids");
    && Check(ORDER_IDS_RULES, ids)
    && forall e :: e in Elements(ids) ==> Check(OrderIdRules(s), Some(e))
  }

  /** The order service's `bulkConfirmOrders`: the store after it, and the count. */
  type BulkService = (Store, Value) -> (Store, nat)

  /** A failed validation redirects back with errors; a passed one redirects
      back with the service's count. */
  datatype BulkOutcome = BackWithErrors(store: Store) | BackWithCount(store: Store, count: nat)

  function BulkConfirm(s: Store, body: map<string, Value>, service: BulkService): (r: BulkOutcome)
    ensures r.BackWithErrors? ==> r.store == s
    ensures r.BackWithCount? ==> "order_ids" in body && (r.store, r.count) == service(s, body["order_ids"])
  {
    if BulkInputValid(s, body) then
      NonEmptyArrayRulesIff(Field(body, "order_ids"));
      var (s', count) := service(s, body["order_ids"]);
      BackWithCount(s', count)
    else BackWithErrors(s)
  }

  /** The service runs exactly when `order_ids` is a non-empty array whose
      every element is an integer naming an existing order; otherwise no
      order is touched. */
  lemma BulkConfirmIff(s: Store, body: map<string, Value>, service: BulkService)
    ensures BulkConfirm(s, body, service).BackWithCount? <==>
              && "order_ids" in body && NonEmptyArray(body["order_ids"])
              && forall e :: e in Elements(Some(body["order_ids"])) ==>
                   IntValue(e).Some? && IdTaken(s.orders, IntValue(e).value)
  {
    var ids := Field(body, "order_ids");
    NonEmptyArrayRulesIff(ids);
    forall e | e in Elements(ids)
      ensures Check(OrderIdRules(s), Some(e)) <==> IntValue(e).Some? && IdTaken(s.orders, IntValue(e).value)
    {
      ExistingIdRulesIff(OrderIds(s.orders), Some(e));
      if IntValue(e).Some? {
        OrderIdsIff(s.orders, IntValue(e).value);
      }
    }
  }

  /** A missing or empty `order_ids` never reaches the service. */
  lemma EmptyIdsRejected(s: Store, service: BulkService)
    ensures BulkConfirm(s, map[], service) == BackWithErrors(s)
    ensures BulkConfirm(s, map["order_ids" := List([])], service) == BackWithErrors(s)
  {
    BulkConfirmIff(s, map[], service);
    BulkConfirmIff(s, map["order_ids" := List([])], service);
  }
}

=== FILE: customer_orders.dfy ===
/** The customer `OrderController`'s `update` and `confirm`: the form request
    (authorize, then rules) runs before the action, the action loads the
    order by number or answers 404, the policy answers 403, and only then is
    the order service called. The service is not part of this model; it is
    a parameter. */
module CustomerOrders {
  import opened Text
  import opened Store
  import opened Rules
  import opened Requests
  import opened Policy

  datatype Outcome = Forbidden | Unprocessable | NotFound | Redirected(store: Store)

  /** The store after a request: only a redirect after the service changes it. */
  function After(s: Store, r: Outcome): Store {
    if r.Redirected? then r.store else s
  }

  /** `updateOrder(order, products)` and `confirmOrder(order, address)` of the order service. */
  type UpdateService = (Store, Order, Value) -> Store
  type ConfirmService = (Store, Order, string) -> Store

  /** `update`: the form request (403 unauthorized, 422 invalid), then
      `firstOrFail` (404), then the policy (403), then the service with the
      validated products, then the redirect. */
  function Update(actor: Option<User>, s: Store, number: string, body: map<string, Value>, service: UpdateService): (r: Outcome)
    ensures UpdateOrderRequest(actor, s.catalog, body) == Unauthorized ==> r == Forbidden
    ensures UpdateOrderRequest(actor, s.catalog, body) == Invalid ==> r == Unprocessable
    ensures UpdateOrderRequest(actor, s.catalog, body) == Passed && !NumberTaken(s.orders, number) ==> r == NotFound
    ensures UpdateOrderRequest(actor, s.catalog, body) == Passed && NumberTaken(s.orders, number) ==>
              && actor.Some?
              && var o := s.orders[FindByNumber(s.orders, number).value];
                 && (!CanUpdate(actor.value, o) ==> r == Forbidden)
                 && (CanUpdate(actor.value, o) ==> r == Redirected(service(s, o, ValidatedProducts(body))))
    ensures r.Redirected? ==>
              && UpdateOrderRequest(actor, s.catalog, body) == Passed
              && actor.Some?
              && exists i :: 0 <= i < |s.orders| && s.orders[i].number == number && CanUpdate(actor.value, s.orders[i])
  {
    match UpdateOrderRequest(actor, s.catalog, body)
    case Unauthorized => Forbidden
    case Invalid => Unprocessable
    case Passed =>
      match FindByNumber(s.orders, number)
      case None => NotFound
      case Some(i) =>
        if !CanUpdate(actor.value, s.orders[i]) then Forbidden
        else Redirected(service(s, s.orders[i], ValidatedProducts(body)))
  }

  /** `confirm`: the same sequence with the confirm request and ability, and
      the validated shipping address. */
  function Confirm(actor: Option<User>, s: Store, number: string, body: map<string, Value>, service: ConfirmService): (r: Outcome)
    ensures ConfirmOrderRequest(actor, body) == Unauthorized ==> r == Forbidden
    ensures ConfirmOrderRequest(actor, body) == Invalid ==> r == Unprocessable
    ensures ConfirmOrderRequest(actor, body) == Passed && !NumberTaken(s.orders, number) ==> r == NotFound
    ensures ConfirmOrderRequest(actor, body) == Passed && NumberTaken(s.orders, number) ==>
              && actor.Some?
              && var o := s.orders[FindByNumber(s.orders, number).value];
                 && (!CanConfirm(actor.value, o) ==> r == Forbidden)
                 && (CanConfirm(actor.value, o) ==> r == Redirected(service(s, o, body["shipping_address"].s)))
    ensures r.Redirected? ==>
              && ConfirmOrderRequest(actor, body) == Passed
              && actor.Some?
              && exists i :: 0 <= i < |s.orders| && s.orders[i].number == number && CanConfirm(actor.value, s.orders[i])
  {
    match ConfirmOrderRequest(actor, body)
    case Unauthorized => Forbidden
    case Invalid => Unprocessable
    case Passed =>
      ConfirmAcceptsIff(actor, body);
      match FindByNumber(s.orders, number)
      case None => NotFound
      case Some(i) =>
        if !CanConfirm(actor.value, s.orders[i]) then Forbidden
        else Redirected(service(s, s.orders[i], ValidatedAddress(body)))
  }

  /** Through the controller, an order that is already confirmed is never
      passed to the service for update or for confirmation: whoever asks and
      whatever the service would do, the store is left as it was. Order
      numbers are unique, so the order loaded is that confirmed one. */
  lemma GuardedConfirmedIsFrozen(actor: Option<User>, s: Store, number: string, body: map<string, Value>,
                                 upd: UpdateService, conf: ConfirmService)
    requires KeysUnique(s.orders)
    requires exists i :: 0 <= i < |s.orders| && s.orders[i].number == number && s.orders[i].status == CONFIRMED
    ensures After(s, Update(actor, s, number, body, upd)) == s
    ensures After(s, Confirm(actor, s, number, body, conf)) == s
  {
    var i :| 0 <= i < |s.orders| && s.orders[i].number == number && s.orders[i].status == CONFIRMED;
    FindByNumberUnique(s.orders, number, i);
    if actor.Some? {
      ConfirmedIsFrozen(actor.value, s.orders[i]);
    }
  }
}

=== FILE: legacy.dfy ===
/** The procedural order layer of `includes/functions.php`, as pure
    transitions over the store. Each function returns the store after all of
    its statements have run, together with the array it returns. Statements
    whose failures the code never checks are taken to succeed. */
module Legacy {
  import opened Text
  import opened Store
  import OrderNumber
  import opened Newest
  import Utf8

  /** One element of the `items` array: a product number and a quantity. */
  datatype ItemInput = ItemInput(productNumber: string, quantity: int)

  /** The arrays the functions return: `['error' => ..., 'code' => ...]` or a
      success payload (`order_number` or `message`) with its code. */
  datatype Reply = Fail(code: int, error: string) | Done(code: int, payload: string)

  /** An order row with its detail rows attached (`$order['items']`). */
  datatype OrderWithItems = OrderWithItems(order: Order, items: seq<LineItem>)

  /** True when the catalog row lookup for this item finds a product. */
  predicate Resolves(catalog: map<string, Product>, item: ItemInput) {
    item.productNumber in catalog
  }

  /** The detail row inserted for one resolved item: product id and price are
      read from the catalog, the subtotal is price times quantity. */
  function DetailFor(catalog: map<string, Product>, oid: int, item: ItemInput): (d: LineItem)
    requires Resolves(catalog, item)
    ensures d.orderId == oid && d.productNumber == item.productNumber && d.quantity == item.quantity
    ensures d.productId == catalog[item.productNumber].id
    ensures d.unitPriceCents == catalog[item.productNumber].priceCents
    ensures d.subtotalCents == d.unitPriceCents * d.quantity
  {
    var p := catalog[item.productNumber];
    LineItem(oid, p.id, item.productNumber, item.quantity, p.priceCents, p.priceCents * item.quantity)
  }

  /** The detail rows the item loop inserts, in item order; an item whose
      product number is not in the catalog is skipped. */
  function ResolveItems(catalog: map<string, Product>, oid: int, items: seq<ItemInput>): (lines: seq<LineItem>)
    ensures |lines| <= |items|
    ensures forall k :: 0 <= k < |lines| ==>
      && lines[k].orderId == oid
      && lines[k].productNumber in catalog
      && lines[k].productId == catalog[lines[k].productNumber].id
      && lines[k].unitPriceCents == catalog[lines[k].productNumber].priceCents
      && lines[k].subtotalCents == lines[k].unitPriceCents * lines[k].quantity
    decreases |items|
  {
    if |items| == 0 then []
    else if Resolves(catalog, items[0]) then [DetailFor(catalog, oid, items[0])] + ResolveItems(catalog, oid, items[1..])
    else ResolveItems(catalog, oid, items[1..])
  }

  /** `calculateTotal`: the sum of price times quantity over the items whose
      product resolves. */
  function CalculateTotal(catalog: map<string, Product>, items: seq<ItemInput>): (total: int)
    ensures (forall k :: 0 <= k < |items| ==> !Resolves(catalog, items[k])) ==> total == 0
    ensures (forall k :: 0 <= k < |items| ==>
               items[k].quantity >= 0 && (Resolves(catalog, items[k]) ==> catalog[items[k].productNumber].priceCents >= 0))
            ==> total >= 0
    decreases |items|
  {
    if |items| == 0 then 0
    else
      (if Resolves(catalog, items[0]) then catalog[items[0].productNumber].priceCents * items[0].quantity else 0)
      + CalculateTotal(catalog, items[1..])
  }

  /** The `INSERT INTO orders` is accepted only when the number is new (unique
      index) and fits varchar(50); otherwise it fails and the function
      returns code 500. */
  predicate InsertAccepted(orders: seq<Order>, number: string) {
    !NumberTaken(orders, number) && |number| <= OrderNumber.COLUMN_WIDTH
  }

  /** `processOrder`: user check, items check, order row, one detail row per
      resolved item, then the total. `t` is `time()`, `r` is `rand(1000, 9999)`.
      A number too long for its column is refused while the row is built,
      before InnoDB hands out an id; a duplicate number is refused by the
      unique index after the id was handed out, and that id is not given back. */
  function ProcessOrder(s: Store, uid: int, items: seq<ItemInput>, t: nat, r: int): (res: (Store, Reply))
    requires 1000 <= r <= 9999
    ensures res.1.code == 400 ==> res.0 == s
    ensures res.1.code == 500 ==>
              var n := OrderNumber.Generate(t, r);
              res.0 == if |n| <= OrderNumber.COLUMN_WIDTH && NumberTaken(s.orders, n) then s.(nextId := s.nextId + 1) else s
    ensures res.1.Fail? <==> res.1.code == 400 || res.1.code == 500
    ensures res.1.code == 201 <==> res.1.Done?
    ensures res.1.Done? <==> uid in s.users && |items| > 0 && InsertAccepted(s.orders, OrderNumber.Generate(t, r))
    ensures res.1.code == 500 <==> uid in s.users && |items| > 0 && !InsertAccepted(s.orders, OrderNumber.Generate(t, r))
    ensures res.0.users == s.users && res.0.catalog == s.catalog
    ensures res.1.Done? ==> res.0.nextId == s.nextId + 1
  {
    if uid !in s.users then (s, Fail(400, "User not found"))
    else if |items| == 0 then (s, Fail(400, "Items required"))
    else
      var number := OrderNumber.Generate(t, r);
      if |number| > OrderNumber.COLUMN_WIDTH then (s, Fail(500, "Failed to create order"))
      else if NumberTaken(s.orders, number) then (s.(nextId := s.nextId + 1), Fail(500, "Failed to create order"))
      else
        var oid := s.nextId;
        var lines := ResolveItems(s.catalog, oid, items);
        var order := Order(oid, number, uid, PENDING, None, SumSubtotals(lines), None);
        (s.(orders := s.orders + [order], items := s.items + lines, nextId := oid + 1), Done(201, number))
  }

  /** `updateOrderItems`: look the order up by number, delete all of its
      details, insert the resolved new items and store their sum as total.
      The order's status is not consulted. */
  function UpdateOrderItems(s: Store, number: string, items: seq<ItemInput>): (res: (Store, Reply))
    ensures res.1.Fail? <==> !NumberTaken(s.orders, number)
    ensures res.1.Fail? ==> res.0 == s && res.1.code == 404
    ensures res.1.Done? ==> res.1.code == 200
    ensures res.0.users == s.users && res.0.catalog == s.catalog && res.0.nextId == s.nextId
  {
    match FindByNumber(s.orders, number)
    case None => (s, Fail(404, "Order not found"))
    case Some(i) =>
      var oid := s.orders[i].id;
      var lines := ResolveItems(s.catalog, oid, items);
      var updated := s.orders[i].(totalCents := SumSubtotals(lines));
      (s.(orders := s.orders[i := updated], items := DropItemsOf(s.items, oid) + lines),
       Done(200, "Order updated"))
  }

  /** `UPDATE orders SET shipping_address = ..., status_id = 2 WHERE order_number = ...`. */
  function ConfirmWhereNumber(orders: seq<Order>, number: string, address: string): (r: seq<Order>)
    ensures |r| == |orders|
    ensures forall k :: 0 <= k < |r| ==>
      r[k] == if orders[k].number == number
              then orders[k].(status := CONFIRMED, shippingAddress := Some(address))
              else orders[k]
    decreases |orders|
  {
    if |orders| == 0 then []
    else
      var head := if orders[0].number == number
                  then orders[0].(status := CONFIRMED, shippingAddress := Some(address))
                  else orders[0];
      [head] + ConfirmWhereNumber(orders[1..], number, address)
  }

  /** Capacity of the TEXT column `shipping_address`, in bytes. */
  const TEXT_BYTES: nat := 65535

  /** `confirmOrderWithAddress`: one UPDATE that does not look at the prior
      status and reports success whether or not a row matched. The UPDATE
      itself fails, and the function answers 500, only when it would store
      an address that does not fit the TEXT column into a matched row. */
  function ConfirmOrderWithAddress(s: Store, number: string, address: string): (res: (Store, Reply))
    ensures res.1.Fail? <==> Utf8.StrLen(address) > TEXT_BYTES && NumberTaken(s.orders, number)
    ensures res.1.Done? ==> res.1 == Done(200, "Order confirmed")
    ensures res.1.Fail? ==> res.1.code == 500 && res.0 == s
  {
    if Utf8.StrLen(address) > TEXT_BYTES && NumberTaken(s.orders, number) then (s, Fail(500, "Failed to confirm order"))
    else (s.(orders := ConfirmWhereNumber(s.orders, number, address)), Done(200, "Order confirmed"))
  }

  /** `getOrderDetails`: null when no order has the number, otherwise the
      order row with its details. */
  function GetOrderDetails(s: Store, number: string): (r: Option<OrderWithItems>)
    ensures r.None? <==> !NumberTaken(s.orders, number)
    ensures r.Some? ==> r.value.order in s.orders && r.value.order.number == number
    ensures r.Some? ==> r.value.items == ItemsOf(s.items, r.value.order.id)
  {
    match FindByNumber(s.orders, number)
    case None => None
    case Some(i) => Some(OrderWithItems(s.orders[i], ItemsOf(s.items, s.orders[i].id)))
  }

  /** The WHERE clause of `searchOrders` on one row of the users / product_status
      join: the owner and the status row must exist, and the text must occur
      in the order number, the first name or the last name. */
  predicate LegacyMatch(s: Store, o: Order, q: string) {
    && o.userId in s.users
    && IsSeededStatus(o.status)
    && (Contains(o.number, q)
        || Contains(s.users[o.userId].firstName, q)
        || Contains(s.users[o.userId].lastName, q))
  }

  function LegacyFilter(s: Store, orders: seq<Order>, q: string): (r: seq<Order>)
    ensures forall o :: o in r <==> o in orders && LegacyMatch(s, o, q)
    decreases |orders|
  {
    if |orders| == 0 then []
    else if LegacyMatch(s, orders[0], q) then [orders[0]] + LegacyFilter(s, orders[1..], q)
    else LegacyFilter(s, orders[1..], q)
  }

  /** The joins are on primary keys, so each order row comes back at most
      as often as it is in the table. */
  lemma {:induction false} LegacyFilterSubMultiset(s: Store, orders: seq<Order>, q: string)
    ensures multiset(LegacyFilter(s, orders, q)) <= multiset(orders)
    decreases |orders|
  {
    if |orders| > 0 {
      LegacyFilterSubMultiset(s, orders[1..], q);
      assert orders == [orders[0]] + orders[1..];
    }
  }

  /** The order rows of a search result, in result order. */
  function RowOrders(r: seq<OrderWithItems>): seq<Order> {
    seq(|r|, k requires 0 <= k < |r| => r[k].order)
  }

  function AttachItems(items: seq<LineItem>, rows: seq<Order>): (r: seq<OrderWithItems>)
    ensures |r| == |rows|
    ensures forall k :: 0 <= k < |r| ==> r[k].order == rows[k] && r[k].items == ItemsOf(items, rows[k].id)
    decreases |rows|
  {
    if |rows| == 0 then []
    else [OrderWithItems(rows[0], ItemsOf(items, rows[0].id))] + AttachItems(items, rows[1..])
  }

  /** `searchOrders`: matching rows newest first, each with its details. */
  function SearchOrders(s: Store, q: string): (r: seq<OrderWithItems>)
    ensures |r| <= |s.orders|
  {
    var rows := SortNewestFirst(LegacyFilter(s, s.orders, q));
    assert |LegacyFilter(s, s.orders, q)| <= |s.orders| by {
      FilterShrinks(s, s.orders, q);
    }
    AttachItems(s.items, rows)
  }

  lemma {:induction false} FilterShrinks(s: Store, orders: seq<Order>, q: string)
    ensures |LegacyFilter(s, orders, q)| <= |orders|
    decreases |orders|
  {
    if |orders| > 0 {
      FilterShrinks(s, orders[1..], q);
    }
  }

  /** `UPDATE orders SET status_id = 2 WHERE order_id = id`. */
  function ConfirmWhereId(orders: seq<Order>, id: int): (r: seq<Order>)
    ensures |r| == |orders|
    ensures forall k :: 0 <= k < |r| ==>
      r[k] == if orders[k].id == id then orders[k].(status := CONFIRMED) else orders[k]
    decreases |orders|
  {
    if |orders| == 0 then []
    else
      var head := if orders[0].id == id then orders[0].(status := CONFIRMED) else orders[0];
      [head] + ConfirmWhereId(orders[1..], id)
  }

  /** The state `bulkConfirmOrders` leaves: every row whose id is listed is
      confirmed, every other row is as it was. */
  function ConfirmedIds(orders: seq<Order>, ids: seq<int>): (r: seq<Order>)
    ensures |r| == |orders|
    ensures forall k :: 0 <= k < |r| ==>
      r[k] == if orders[k].id in ids then orders[k].(status := CONFIRMED) else orders[k]
    decreases |orders|
  {
    if |orders| == 0 then []
    else
      var head := if orders[0].id in ids then orders[0].(status := CONFIRMED) else orders[0];
      [head] + ConfirmedIds(orders[1..], ids)
  }

  /** `bulkConfirmOrders`: one UPDATE per listed id, counting every UPDATE
      that succeeds; an UPDATE that matches no row, or a row already
      confirmed, still succeeds and is counted. */
  method BulkConfirmOrders(s: Store, ids: seq<int>) returns (s': Store, count: nat)
    ensures count == |ids|
    ensures s'.orders == ConfirmedIds(s.orders, ids)
    ensures s' == s.(orders := s'.orders)
  {
    s' := s;
    count := 0;
    var k := 0;
    assert ConfirmedIds(s.orders, ids[..0]) == s.orders;
    while k < |ids|
      invariant 0 <= k <= |ids|
      invariant count == k
      invariant s' == s.(orders := s'.orders)
      invariant s'.orders == ConfirmedIds(s.orders, ids[..k])
    {
      ConfirmStep(s.orders, ids[..k], ids[k]);
      assert ids[..k + 1] == ids[..k] + [ids[k]];
      s' := s'.(orders := ConfirmWhereId(s'.orders, ids[k]));
      count := count + 1;
      k := k + 1;
    }
    assert ids[..k] == ids;
  }

  /** Running one more UPDATE after the first ones confirms one more id. */
  lemma {:induction false} ConfirmStep(orders: seq<Order>, done: seq<int>, id: int)
    ensures ConfirmWhereId(ConfirmedIds(orders, done), id) == ConfirmedIds(orders, done + [id])
    decreases |orders|
  {
    if |orders| > 0 {
      ConfirmStep(orders[1..], done, id);
    }
  }
}

=== FILE: legacy_facts.dfy ===
/** Properties of the legacy order layer: what each operation promises about
    the store, that each keeps the schema invariant, and the quirks of the
    code (skipped products, unchecked status, counts of bulk confirmation). */
module LegacyFacts {
  import opened Text
  import opened Store
  import OrderNumber
  import Utf8
  import opened Newest
  import opened Legacy

  // ---------------------------------------------------------------------
  // Totals

  /** The stored total (sum of the inserted subtotals) equals what
      `calculateTotal` computes from the same items. */
  lemma {:induction false} ResolvedTotal(catalog: map<string, Product>, oid: int, items: seq<ItemInput>)
    ensures SumSubtotals(ResolveItems(catalog, oid, items)) == CalculateTotal(catalog, items)
    decreases |items|
  {
    if |items| > 0 {
      ResolvedTotal(catalog, oid, items[1..]);
      if Resolves(catalog, items[0]) {
        var rest := ResolveItems(catalog, oid, items[1..]);
        var lines := [DetailFor(catalog, oid, items[0])] + rest;
        assert lines[1..] == rest;
      }
    }
  }

  /** No item resolves exactly when no detail row is inserted, and then the
      total is zero. */
  lemma {:induction false} NothingResolves(catalog: map<string, Product>, oid: int, items: seq<ItemInput>)
    ensures ResolveItems(catalog, oid, items) == [] <==>
            forall k :: 0 <= k < |items| ==> !Resolves(catalog, items[k])
    ensures (forall k :: 0 <= k < |items| ==> !Resolves(catalog, items[k])) ==>
            CalculateTotal(catalog, items) == 0
    decreases |items|
  {
    if |items| > 0 {
      NothingResolves(catalog, oid, items[1..]);
      if forall k :: 0 <= k < |items[1..]| ==> !Resolves(catalog, items[1..][k]) {
        if !Resolves(catalog, items[0]) {
          forall k | 0 <= k < |items| ensures !Resolves(catalog, items[k]) {
            if k > 0 { assert items[k] == items[1..][k - 1]; }
          }
        }
      } else {
        var k :| 0 <= k < |items[1..]| && Resolves(catalog, items[1..][k]);
        assert Resolves(catalog, items[k + 1]);
      }
    }
  }

  // ---------------------------------------------------------------------
  // processOrder

  /** Code 400 comes back exactly when the user is unknown or the items list
      is empty, and then no order is inserted. */
  lemma ProcessOrderRejects(s: Store, uid: int, items: seq<ItemInput>, t: nat, r: int)
    requires 1000 <= r <= 9999
    ensures var (s', reply) := ProcessOrder(s, uid, items, t, r);
            (reply.code == 400 <==> uid !in s.users || |items| == 0)
            && (reply.code == 400 ==> s' == s && reply.Fail?)
  {
  }

  /** A successful `processOrder` appends exactly one order: pending, owned
      by the caller, numbered by the generator, without address, whose
      details are the resolved items and whose total is `calculateTotal` of
      the items. Its id is the auto-increment value, which advances by one.
      Every earlier order keeps its row and its details, and the users and
      the catalog are untouched. */
  lemma ProcessOrderCreates(s: Store, uid: int, items: seq<ItemInput>, t: nat, r: int)
    requires Valid(s)
    requires 1000 <= r <= 9999
    ensures var (s', reply) := ProcessOrder(s, uid, items, t, r);
            reply.Done? ==>
              && reply == Done(201, OrderNumber.Generate(t, r))
              && s'.users == s.users && s'.catalog == s.catalog
              && s'.nextId == s.nextId + 1
              && |s'.orders| == |s.orders| + 1
              && s'.orders[..|s.orders|] == s.orders
              && var o := s'.orders[|s.orders|];
                 && o.id == s.nextId
                 && !IdTaken(s.orders, o.id)
                 && o.number == OrderNumber.Generate(t, r)
                 && o.userId == uid
                 && o.status == PENDING
                 && o.shippingAddress == None
                 && o.createdAt == None
                 && ItemsOf(s'.items, o.id) == ResolveItems(s.catalog, o.id, items)
                 && o.totalCents == SumSubtotals(ItemsOf(s'.items, o.id))
                 && o.totalCents == CalculateTotal(s.catalog, items)
                 && (forall k :: 0 <= k < |s.orders| ==>
                       ItemsOf(s'.items, s.orders[k].id) == ItemsOf(s.items, s.orders[k].id))
  {
    var (s', reply) := ProcessOrder(s, uid, items, t, r);
    if reply.Done? {
      var oid := s.nextId;
      var lines := ResolveItems(s.catalog, oid, items);
      assert s'.items == s.items + lines;
      assert s'.orders == s.orders + [s'.orders[|s.orders|]];
      ItemsOfAppend(s.items, lines, oid);
      ItemsOfNone(s.items, oid);
      ItemsOfAll(lines, oid);
      ResolvedTotal(s.catalog, oid, items);
      forall k | 0 <= k < |s.orders|
        ensures ItemsOf(s'.items, s.orders[k].id) == ItemsOf(s.items, s.orders[k].id)
      {
        ItemsOfAppend(s.items, lines, s.orders[k].id);
        ItemsOfNone(lines, s.orders[k].id);
      }
    }
  }

  /** When no product resolves the order still exists, with no details and
      a zero total, and the reply is still 201. */
  lemma ProcessOrderEmptyOrder(s: Store, uid: int, items: seq<ItemInput>, t: nat, r: int)
    requires Valid(s)
    requires 1000 <= r <= 9999
    requires uid in s.users && |items| > 0
    requires InsertAccepted(s.orders, OrderNumber.Generate(t, r))
    requires forall k :: 0 <= k < |items| ==> !Resolves(s.catalog, items[k])
    ensures var (s', reply) := ProcessOrder(s, uid, items, t, r);
            && reply.code == 201
            && |s'.orders| == |s.orders| + 1
            && ItemsOf(s'.items, s'.orders[|s.orders|].id) == []
            && s'.orders[|s.orders|].totalCents == 0
  {
    ProcessOrderCreates(s, uid, items, t, r);
    NothingResolves(s.catalog, s.nextId, items);
  }

  lemma ProcessOrderKeepsValid(s: Store, uid: int, items: seq<ItemInput>, t: nat, r: int)
    requires Valid(s)
    requires 1000 <= r <= 9999
    ensures Valid(ProcessOrder(s, uid, items, t, r).0)
  {
    var (s', reply) := ProcessOrder(s, uid, items, t, r);
    if reply.Done? {
      var o := s'.orders[|s.orders|];
      assert s'.orders == s.orders + [o];
      forall i | 0 <= i < |s'.orders| ensures RowFits(s'.orders[i], s'.users, s'.nextId) {
        if i < |s.orders| { assert RowFits(s.orders[i], s.users, s.nextId); }
      }
      forall i, j | 0 <= i < j < |s'.orders|
        ensures s'.orders[i].id != s'.orders[j].id && s'.orders[i].number != s'.orders[j].number
      {
        if j == |s.orders| {
          assert RowFits(s.orders[i], s.users, s.nextId);
        }
      }
    }
  }

  // ---------------------------------------------------------------------
  // updateOrderItems

  /** On the order with the number: its details become exactly the resolved
      new items, so no old detail survives, and its total is recomputed as
      their sum; the rest of the row is kept. */
  lemma UpdateTargetRow(s: Store, number: string, items: seq<ItemInput>, i: nat)
    requires Valid(s)
    requires i < |s.orders| && s.orders[i].number == number
    ensures var (s', reply) := UpdateOrderItems(s, number, items);
            && reply == Done(200, "Order updated")
            && |s'.orders| == |s.orders|
            && s'.orders[i] == s.orders[i].(totalCents := CalculateTotal(s.catalog, items))
            && ItemsOf(s'.items, s.orders[i].id) == ResolveItems(s.catalog, s.orders[i].id, items)
  {
    var (s', reply) := UpdateOrderItems(s, number, items);
    FindByNumberUnique(s.orders, number, i);
    var oid := s.orders[i].id;
    var lines := ResolveItems(s.catalog, oid, items);
    assert s'.items == DropItemsOf(s.items, oid) + lines;
    ResolvedTotal(s.catalog, oid, items);
    ItemsOfAppend(DropItemsOf(s.items, oid), lines, oid);
    DropItemsOfSpec(s.items, oid, oid);
    ItemsOfAll(lines, oid);
  }

  /** Every other order row is left as it was. */
  lemma UpdateOtherRows(s: Store, number: string, items: seq<ItemInput>, i: nat)
    requires i < |s.orders| && s.orders[i].number != number
    ensures var s' := UpdateOrderItems(s, number, items).0;
            |s'.orders| == |s.orders| && s'.orders[i] == s.orders[i]
  {
  }

  /** Every other order keeps exactly the details it had, in the same order:
      the delete and the inserts touch only the order with the number. */
  lemma UpdateOtherDetails(s: Store, number: string, items: seq<ItemInput>, o: Order)
    requires KeysUnique(s.orders)
    requires o in s.orders && o.number != number
    ensures ItemsOf(UpdateOrderItems(s, number, items).0.items, o.id) == ItemsOf(s.items, o.id)
  {
    var (s', reply) := UpdateOrderItems(s, number, items);
    if NumberTaken(s.orders, number) {
      var i0 := FindByNumber(s.orders, number).value;
      var oid := s.orders[i0].id;
      var lines := ResolveItems(s.catalog, oid, items);
      assert s'.items == DropItemsOf(s.items, oid) + lines;
      var j :| 0 <= j < |s.orders| && s.orders[j] == o;
      assert j != i0;
      assert o.id != oid;
      ItemsOfAppend(DropItemsOf(s.items, oid), lines, o.id);
      DropItemsOfSpec(s.items, oid, o.id);
      ItemsOfNone(lines, o.id);
    }
  }


  lemma UpdateKeepsValid(s: Store, number: string, items: seq<ItemInput>)
    requires Valid(s)
    ensures Valid(UpdateOrderItems(s, number, items).0)
  {
    var (s', reply) := UpdateOrderItems(s, number, items);
    if reply.Done? {
      var i0 := FindByNumber(s.orders, number).value;
      var oid := s.orders[i0].id;
      KeysUniqueTransfer(s.orders, s'.orders);
      assert RowFits(s.orders[i0], s.users, s.nextId);
      var lines := ResolveItems(s.catalog, oid, items);
      var kept := DropItemsOf(s.items, oid);
      assert s'.items == kept + lines;
      forall k | 0 <= k < |s'.items| ensures s'.items[k].orderId < s'.nextId {
        if k < |kept| {
          assert kept[k] in kept;
        } else {
          assert s'.items[k] == lines[k - |kept|];
        }
      }
    }
  }

  // ---------------------------------------------------------------------
  // confirmOrderWithAddress

  /** An address that fits the column: the matching order becomes confirmed
      with it whatever its status was; no other order changes. Whatever the
      address, the reply is 200 when no order matches, and then nothing
      changes at all. An address too long for the column, sent for an order
      that exists, changes nothing and gives 500. */
  lemma ConfirmSetsStatus(s: Store, number: string, address: string)
    ensures var (s', reply) := ConfirmOrderWithAddress(s, number, address);
            Utf8.StrLen(address) > TEXT_BYTES && NumberTaken(s.orders, number) ==> reply.code == 500 && s' == s
    ensures var (s', reply) := ConfirmOrderWithAddress(s, number, address);
            !NumberTaken(s.orders, number) ==> reply.code == 200 && s' == s
    ensures var (s', reply) := ConfirmOrderWithAddress(s, number, address);
            Utf8.StrLen(address) <= TEXT_BYTES ==>
            && reply.code == 200
            && s'.items == s.items && s'.users == s.users && s'.catalog == s.catalog
            && |s'.orders| == |s.orders|
            && (forall i :: 0 <= i < |s.orders| && s.orders[i].number == number ==>
                  s'.orders[i].status == CONFIRMED && s'.orders[i].shippingAddress == Some(address)
                  && s'.orders[i].id == s.orders[i].id && s'.orders[i].totalCents == s.orders[i].totalCents)
            && (forall i :: 0 <= i < |s.orders| && s.orders[i].number != number ==> s'.orders[i] == s.orders[i])
            && (!NumberTaken(s.orders, number) ==> s' == s)
  {
    var (s', reply) := ConfirmOrderWithAddress(s, number, address);
    if !NumberTaken(s.orders, number) {
      assert s'.orders == s.orders;
    }
  }

  /** Re-confirming an already confirmed order with an address that fits
      succeeds and overwrites its address: the code checks no prior status. */
  lemma ReconfirmOverwritesAddress(s: Store, i: nat, address: string)
    requires i < |s.orders| && s.orders[i].status == CONFIRMED
    ensures var (s', reply) := ConfirmOrderWithAddress(s, s.orders[i].number, address);
            Utf8.StrLen(address) <= TEXT_BYTES ==> reply.code == 200 && s'.orders[i].shippingAddress == Some(address)
  {
  }

  lemma ConfirmKeepsValid(s: Store, number: string, address: string)
    requires Valid(s)
    ensures Valid(ConfirmOrderWithAddress(s, number, address).0)
  {
    var s' := ConfirmOrderWithAddress(s, number, address).0;
    KeysUniqueTransfer(s.orders, s'.orders);
    forall i | 0 <= i < |s'.orders| ensures RowFits(s'.orders[i], s'.users, s'.nextId) {
      assert RowFits(s.orders[i], s.users, s.nextId);
    }
  }

  // ---------------------------------------------------------------------
  // bulkConfirmOrders

  /** Every listed existing order ends confirmed, every unlisted one is
      unchanged, and the schema invariant holds afterwards. */
  lemma BulkConfirmEffect(s: Store, ids: seq<int>)
    requires Valid(s)
    ensures var orders' := ConfirmedIds(s.orders, ids);
            && (forall i :: 0 <= i < |s.orders| && s.orders[i].id in ids ==>
                  orders'[i].status == CONFIRMED && orders'[i] == s.orders[i].(status := CONFIRMED))
            && (forall i :: 0 <= i < |s.orders| && s.orders[i].id !in ids ==> orders'[i] == s.orders[i])
            && Valid(s.(orders := orders'))
  {
    var orders' := ConfirmedIds(s.orders, ids);
    KeysUniqueTransfer(s.orders, orders');
    forall i | 0 <= i < |orders'| ensures RowFits(orders'[i], s.users, s.nextId) {
      assert RowFits(s.orders[i], s.users, s.nextId);
    }
  }

  /** The bulk-confirm scenario of ids [pending A, confirmed B, nonexistent C]:
      A and B end confirmed and the count is 3, one per UPDATE issued, not
      the single transition actually made. */
  method BulkConfirmScenario() returns (count: nat)
    ensures count == 3
  {
    var a := Order(1, "ORD-1", 7, PENDING, None, 0, None);
    var b := Order(2, "ORD-2", 7, CONFIRMED, Some("123 Main St"), 0, None);
    var s := Store([a, b], [], map[], map[7 := User(7, "U", "One", "u1@example.com", false)], 3);
    var s';
    s', count := BulkConfirmOrders(s, [1, 2, 99]);
    assert s'.orders[0].status == CONFIRMED && s'.orders[1] == b;
  }

  // ---------------------------------------------------------------------
  // searchOrders

  /** The rows returned are exactly the joined rows whose number, first name
      or last name contains the text, newest first, each with its own details. */
  lemma SearchSpec(s: Store, q: string)
    ensures var r := SearchOrders(s, q);
            && (forall o :: (exists k :: 0 <= k < |r| && r[k].order == o) <==> o in s.orders && LegacyMatch(s, o, q))
            && (forall i, j :: 0 <= i < j < |r| ==> Rank(r[i].order) >= Rank(r[j].order))
            && (forall k :: 0 <= k < |r| ==> r[k].items == ItemsOf(s.items, r[k].order.id))
  {
    var filtered := LegacyFilter(s, s.orders, q);
    var rows := SortNewestFirst(filtered);
    var r := SearchOrders(s, q);
    forall o ensures (exists k :: 0 <= k < |r| && r[k].order == o) <==> o in s.orders && LegacyMatch(s, o, q) {
      SortKeepsRows(filtered, o);
      if o in rows {
        var k :| 0 <= k < |rows| && rows[k] == o;
        assert r[k].order == o;
      }
    }
  }

  /** The joins are on primary keys, so no order comes back more often than
      it is in the table. */
  lemma SearchRowsOnce(s: Store, q: string)
    ensures multiset(RowOrders(SearchOrders(s, q))) <= multiset(s.orders)
  {
    var filtered := LegacyFilter(s, s.orders, q);
    assert RowOrders(SearchOrders(s, q)) == SortNewestFirst(filtered);
    LegacyFilterSubMultiset(s, s.orders, q);
  }

  /** `LIKE '%%'` matches every row: on a valid store the empty search returns
      every order, each exactly once. */
  lemma EmptySearchReturnsAll(s: Store)
    requires Valid(s)
    ensures multiset(LegacyFilter(s, s.orders, "")) == multiset(s.orders)
  {
    FilterAll(s, s.orders);
  }

  lemma {:induction false} FilterAll(s: Store, orders: seq<Order>)
    requires forall k :: 0 <= k < |orders| ==> orders[k].userId in s.users && IsSeededStatus(orders[k].status)
    ensures LegacyFilter(s, orders, "") == orders
    decreases |orders|
  {
    if |orders| > 0 {
      EmptyNeedle(orders[0].number);
      FilterAll(s, orders[1..]);
      assert orders == [orders[0]] + orders[1..];
    }
  }

  /** The legacy search does not look at e-mail addresses: an order whose
      number and owner's names do not contain the text is never returned,
      whatever the owner's e-mail holds. */
  lemma EmailNotSearched(s: Store, q: string, o: Order)
    requires o in s.orders
    requires !Contains(o.number, q)
    requires o.userId in s.users ==>
               !Contains(s.users[o.userId].firstName, q) && !Contains(s.users[o.userId].lastName, q)
    ensures forall k :: 0 <= k < |SearchOrders(s, q)| ==> SearchOrders(s, q)[k].order != o
  {
    SearchSpec(s, q);
  }

  /** Changing a user's e-mail never changes what the legacy search returns. */
  lemma EmailIrrelevant(s: Store, q: string, uid: int, email: string)
    requires uid in s.users
    ensures SearchOrders(s.(users := s.users[uid := s.users[uid].(email := email)]), q) == SearchOrders(s, q)
  {
    var s' := s.(users := s.users[uid := s.users[uid].(email := email)]);
    FilterIgnoresEmail(s, s', s.orders, q);
  }

  lemma {:induction false} FilterIgnoresEmail(s: Store, s': Store, orders: seq<Order>, q: string)
    requires s'.users.Keys == s.users.Keys
    requires forall u :: u in s.users ==>
               s'.users[u].firstName == s.users[u].firstName && s'.users[u].lastName == s.users[u].lastName
    ensures LegacyFilter(s', orders, q) == LegacyFilter(s, orders, q)
    decreases |orders|
  {
    if |orders| > 0 {
      FilterIgnoresEmail(s, s', orders[1..], q);
      assert LegacyMatch(s', orders[0], q) == LegacyMatch(s, orders[0], q);
    }
  }

  /** An example: the text "shop" occurs only in the owner's e-mail, and the
      search finds nothing. */
  lemma EmailNotSearchedExample()
    ensures var u := User(7, "Ann", "Lee", "ann@shop.example", false);
            var o := Order(1, "ORD-1", 7, PENDING, None, 0, None);
            var s := Store([o], [], map[], map[7 := u], 2);
            SearchOrders(s, "shop") == []
  {
    var u := User(7, "Ann", "Lee", "ann@shop.example", false);
    var o := Order(1, "ORD-1", 7, PENDING, None, 0, None);
    var s := Store([o], [], map[], map[7 := u], 2);
    assert !Contains("ORD-1", "shop") by { NotContainsShort("ORD-1", "shop"); }
    assert !Contains("Ann", "shop") by { NotContainsShort("Ann", "shop"); }
    assert !Contains("Lee", "shop") by { NotContainsShort("Lee", "shop"); }
    assert LegacyFilter(s, s.orders, "shop") == [];
  }

  /** A needle containing 'h' is not found in a text without 'h'. */
  lemma NotContainsShort(hay: string, needle: string)
    requires |needle| > 1 && needle[1] == 'h'
    requires forall i :: 0 <= i < |hay| ==> hay[i] != 'h'
    ensures !Contains(hay, needle)
  {
    forall i: nat | i + |needle| <= |hay| ensures !OccursAt(hay, needle, i) {
      assert hay[i..i + |needle|][1] != needle[1];
    }
    ContainsIff(hay, needle);
  }
}

=== FILE: money.dfy ===
/** Money as integer cents. `total_amount`, `unit_price` and `subtotal` are
    decimal(10,2) columns read through the `decimal:2` cast, so every value
    the store holds is a whole number of cents. */
module Money {
  import opened Text

  /** Unsigned text with exactly two fraction digits: 250 -> "2.50". */
  function FormatUnsigned(n: nat): (s: string)
    ensures |s| >= 4
    ensures s[|s| - 3] == '.' && IsDigit(s[|s| - 2]) && IsDigit(s[|s| - 1])
    ensures AllDigits(s[..|s| - 3])
    ensures IsDigit(s[0])
  {
    NatToDecimal(n / 100) + "." + [DigitChar((n % 100) / 10), DigitChar(n % 10)]
  }

  /** The text the `decimal:2` cast produces for a value of `cents` cents. */
  function FormatCents(cents: int): (s: string)
    ensures |s| >= 4 && s[|s| - 3] == '.'
    ensures s[0] == '-' <==> cents < 0
  {
    if cents < 0 then "-" + FormatUnsigned(-cents) else FormatUnsigned(cents)
  }

  function ParseUnsigned(u: string): Option<nat> {
    if |u| >= 4 && u[|u| - 3] == '.' && AllDigits(u[..|u| - 3])
       && IsDigit(u[|u| - 2]) && IsDigit(u[|u| - 1])
    then Some(DecimalToNat(u[..|u| - 3]) * 100 + DigitValue(u[|u| - 2]) * 10 + DigitValue(u[|u| - 1]))
    else None
  }

  /** Reads two-decimal text back as cents. */
  function ParseCents(s: string): Option<int> {
    if |s| > 0 && s[0] == '-' then
      match ParseUnsigned(s[1..])
      case Some(n) => Some(0 - (n as int))
      case None => None
    else
      match ParseUnsigned(s)
      case Some(n) => Some(n as int)
      case None => None
  }

  lemma ParseFormatUnsigned(n: nat)
    ensures ParseUnsigned(FormatUnsigned(n)) == Some(n)
  {
    var s := FormatUnsigned(n);
    assert s[..|s| - 3] == NatToDecimal(n / 100);
    DecimalRoundTrip(n / 100);
  }

  /** The cast is exact: formatting cents and reading the text back gives the
      same amount, so two-decimal money and integer cents are interchangeable. */
  lemma ParseFormat(cents: int)
    ensures ParseCents(FormatCents(cents)) == Some(cents)
  {
    var s := FormatCents(cents);
    if cents < 0 {
      var u := FormatUnsigned(-cents);
      assert s == "-" + u;
      assert s[0] == '-' && s[1..] == u;
      ParseFormatUnsigned(-cents);
    } else {
      assert s == FormatUnsigned(cents);
      assert s[0] != '-' by { assert IsDigit(s[0]); }
      ParseFormatUnsigned(cents);
    }
  }
}

=== FILE: newest.dfy ===
/** `ORDER BY created_at DESC` (also Eloquent's `latest()`), over order rows.
    MySQL sorts NULL below every timestamp, so rows without a creation time
    come last.
    The order among rows with equal keys is left unspecified, as in MySQL. */
module Newest {
  import opened Text
  import opened Store

  /** Sort key: NULL ranks lowest, then timestamps in their natural order. */
  function Rank(o: Order): nat {
    match o.createdAt
    case None => 0
    case Some(t) => t + 1
  }

  predicate NewestFirst(os: seq<Order>) {
    forall i, j :: 0 <= i < j < |os| ==> Rank(os[i]) >= Rank(os[j])
  }

  /** Putting a row in front of a newest-first list that it is not older than
      keeps the list newest-first. */
  lemma ConsNewestFirst(x: Order, rest: seq<Order>)
    requires NewestFirst(rest)
    requires |rest| > 0 ==> Rank(x) >= Rank(rest[0])
    ensures NewestFirst([x] + rest)
  {
    var r := [x] + rest;
    forall i, j | 0 <= i < j < |r| ensures Rank(r[i]) >= Rank(r[j]) {
      if i == 0 {
        assert r[j] == rest[j - 1];
        if j > 1 {
          assert Rank(rest[0]) >= Rank(rest[j - 1]);
        }
      } else {
        assert r[i] == rest[i - 1] && r[j] == rest[j - 1];
      }
    }
  }

  /** One insertion step: `o` goes in front of the first row older than it. */
  function Insert(o: Order, sorted: seq<Order>): (r: seq<Order>)
    ensures |r| == |sorted| + 1
    decreases |sorted|
  {
    if |sorted| == 0 then [o]
    else if Rank(sorted[0]) >= Rank(o) then [sorted[0]] + Insert(o, sorted[1..])
    else [o] + sorted
  }

  /** Insertion adds exactly the one row. */
  lemma {:induction false} InsertRows(o: Order, sorted: seq<Order>)
    ensures multiset(Insert(o, sorted)) == multiset(sorted) + multiset{o}
    decreases |sorted|
  {
    if |sorted| > 0 && Rank(sorted[0]) >= Rank(o) {
      InsertRows(o, sorted[1..]);
      assert sorted == [sorted[0]] + sorted[1..];
      assert multiset(sorted) == multiset{sorted[0]} + multiset(sorted[1..]);
    }
  }

  /** Insertion keeps a newest-first list newest-first; the head is either
      the new row or the old head. */
  lemma {:induction false} InsertSorted(o: Order, sorted: seq<Order>)
    requires NewestFirst(sorted)
    ensures NewestFirst(Insert(o, sorted))
    ensures Insert(o, sorted)[0] == o || (|sorted| > 0 && Insert(o, sorted)[0] == sorted[0])
    decreases |sorted|
  {
    if |sorted| > 0 {
      if Rank(sorted[0]) >= Rank(o) {
        var tail := sorted[1..];
        assert NewestFirst(tail) by {
          forall i, j | 0 <= i < j < |tail| ensures Rank(tail[i]) >= Rank(tail[j]) {
            assert tail[i] == sorted[i + 1] && tail[j] == sorted[j + 1];
          }
        }
        InsertSorted(o, tail);
        var rest := Insert(o, tail);
        assert Rank(rest[0]) <= Rank(sorted[0]) by {
          if rest[0] != o {
            assert rest[0] == sorted[1];
          }
        }
        ConsNewestFirst(sorted[0], rest);
      } else {
        ConsNewestFirst(o, sorted);
      }
    }
  }

  /** A newest-first sort: the result holds exactly the input rows. */
  function SortNewestFirst(os: seq<Order>): (r: seq<Order>)
    ensures NewestFirst(r)
    ensures multiset(r) == multiset(os)
    ensures |r| == |os|
    decreases |os|
  {
    if |os| == 0 then []
    else
      var rest := SortNewestFirst(os[1..]);
      InsertRows(os[0], rest);
      InsertSorted(os[0], rest);
      assert multiset(os) == multiset{os[0]} + multiset(os[1..]) by {
        assert os == [os[0]] + os[1..];
      }
      Insert(os[0], rest)
  }

  /** Membership survives the sort in both directions. */
  lemma SortKeepsRows(os: seq<Order>, o: Order)
    ensures o in SortNewestFirst(os) <==> o in os
  {
    var r := SortNewestFirst(os);
    assert o in r <==> o in multiset(r);
    assert o in os <==> o in multiset(os);
  }
}

=== FILE: order_model.dfy ===
/** The Eloquent `Order` model and the `orders` migration: the creating hook
    that fills in the order number, the column defaults applied when an
    insert omits a column, the pending / confirmed query scopes, and the
    cascade from `users` to `orders`. */
module OrderModel {
  import opened Text
  import opened Store
  import OrderNumber

  /** The creating hook: a number is generated only when the supplied one is
      PHP-empty (null, "" or "0"); any other supplied number is kept. */
  function NumberOnCreating(supplied: Option<string>, t: nat, r: int): (n: string)
    requires 1000 <= r <= 9999
    ensures supplied.Some? && !PhpEmpty(supplied.value) ==> n == supplied.value
    ensures supplied.None? || PhpEmpty(supplied.value) ==>
              n == OrderNumber.Generate(t, r) && OrderNumber.Parse(n) == Some((t, r))
  {
    OrderNumber.ParseGenerate(t, r);
    if supplied.None? || PhpEmpty(supplied.value) then OrderNumber.Generate(t, r) else supplied.value
  }

  /** A caller-supplied "0" is PHP-empty, so the hook replaces it. */
  lemma ZeroNumberReplaced(t: nat, r: int)
    requires 1000 <= r <= 9999
    ensures NumberOnCreating(Some("0"), t, r) != "0"
    ensures IsPrefix(OrderNumber.PREFIX, NumberOnCreating(Some("0"), t, r))
  {
  }

  /** The attributes `Order::create` receives; None means the attribute was
      not given (a mass-assigned null is not modelled). */
  datatype NewOrder = NewOrder(
    number: Option<string>,
    userId: int,
    status: Option<int>,
    shippingAddress: Option<string>,
    totalCents: Option<int>)

  datatype InsertError = DuplicateNumber | NumberTooLong | UnknownStatus | UnknownUser

  /** Both outcomes carry the store afterwards: a refused insert can still
      have used up an auto-increment id. */
  datatype InsertResult = Inserted(store: Store, order: Order) | Rejected(reason: InsertError, store: Store)

  /** `Order::create(...)` at clock `now`: the creating hook, then the
      column defaults (status 1, total 0, address null), then the table's
      constraints, in the order MySQL would report them. A number too long
      for its column is refused while the row is built, before InnoDB hands
      out an id; the unique index and the foreign keys refuse the row after
      the id was handed out, and that id is not given back. */
  function Create(s: Store, attrs: NewOrder, t: nat, r: int, now: nat): (res: InsertResult)
    requires 1000 <= r <= 9999
    ensures res.Inserted? ==> res.store == s.(orders := s.orders + [res.order], nextId := s.nextId + 1)
    ensures res.Rejected? ==>
              res.store == if res.reason == NumberTooLong then s else s.(nextId := s.nextId + 1)
  {
    var number := NumberOnCreating(attrs.number, t, r);
    var status := match attrs.status case None => PENDING case Some(v) => v;
    var total := match attrs.totalCents case None => 0 case Some(v) => v;
    var consumed := s.(nextId := s.nextId + 1);
    if |number| > OrderNumber.COLUMN_WIDTH then Rejected(NumberTooLong, s)
    else if NumberTaken(s.orders, number) then Rejected(DuplicateNumber, consumed)
    else if attrs.userId !in s.users then Rejected(UnknownUser, consumed)
    else if !IsSeededStatus(status) then Rejected(UnknownStatus, consumed)
    else
      var o := Order(s.nextId, number, attrs.userId, status, attrs.shippingAddress, total, Some(now));
      Inserted(s.(orders := s.orders + [o], nextId := s.nextId + 1), o)
  }

  /** `scopePending`: the rows with status_id 1. */
  function ScopePending(orders: seq<Order>): (r: seq<Order>)
    ensures forall o :: o in r <==> o in orders && o.status == PENDING
    decreases |orders|
  {
    if |orders| == 0 then []
    else if orders[0].status == PENDING then [orders[0]] + ScopePending(orders[1..])
    else ScopePending(orders[1..])
  }

  /** `scopeConfirmed`: the rows with status_id 2. */
  function ScopeConfirmed(orders: seq<Order>): (r: seq<Order>)
    ensures forall o :: o in r <==> o in orders && o.status == CONFIRMED
    decreases |orders|
  {
    if |orders| == 0 then []
    else if orders[0].status == CONFIRMED then [orders[0]] + ScopeConfirmed(orders[1..])
    else ScopeConfirmed(orders[1..])
  }

  /** Deleting a user; the foreign key cascades to that user's orders. */
  function DeleteUser(s: Store, uid: int): (s': Store)
    ensures uid !in s'.users
  {
    s.(users := s.users - {uid}, orders := OrdersNotOf(s.orders, uid))
  }

  function OrdersNotOf(orders: seq<Order>, uid: int): (r: seq<Order>)
    ensures forall o :: o in r <==> o in orders && o.userId != uid
    decreases |orders|
  {
    if |orders| == 0 then []
    else if orders[0].userId == uid then OrdersNotOf(orders[1..], uid)
    else [orders[0]] + OrdersNotOf(orders[1..], uid)
  }

  // ---------------------------------------------------------------------
  // Properties

  /** An insert that omits status, total or address gets status 1 (pending),
      total 0 and a null address; the creation time is the clock reading. */
  lemma CreateDefaults(s: Store, attrs: NewOrder, t: nat, r: int, now: nat)
    requires 1000 <= r <= 9999
    ensures var res := Create(s, attrs, t, r, now);
            res.Inserted? ==>
              && (attrs.status.None? ==> res.order.status == PENDING)
              && (attrs.totalCents.None? ==> res.order.totalCents == 0)
              && (attrs.shippingAddress.None? ==> res.order.shippingAddress == None)
              && res.order.createdAt == Some(now)
              && res.order.userId == attrs.userId
              && (Valid(s) ==> !IdTaken(s.orders, res.order.id))
  {
    var res := Create(s, attrs, t, r, now);
    if res.Inserted? && Valid(s) {
      forall i | 0 <= i < |s.orders| ensures s.orders[i].id != res.order.id {
        assert RowFits(s.orders[i], s.users, s.nextId);
      }
    }
  }

  /** The insert is refused exactly when a table constraint fails: the number
      is too long or already used, the owner does not exist, or the status
      names no `product_status` row. */
  lemma CreateRejectsIff(s: Store, attrs: NewOrder, t: nat, r: int, now: nat)
    requires 1000 <= r <= 9999
    ensures var n := NumberOnCreating(attrs.number, t, r);
            var status := if attrs.status.None? then PENDING else attrs.status.value;
            Create(s, attrs, t, r, now).Rejected? <==>
              |n| > OrderNumber.COLUMN_WIDTH || NumberTaken(s.orders, n)
              || attrs.userId !in s.users || !IsSeededStatus(status)
  {
  }

  /** A generated number never trips the length constraint while the clock
      reads ten digits or fewer. */
  lemma GeneratedNumberFits(s: Store, attrs: NewOrder, t: nat, r: int, now: nat)
    requires 1000 <= r <= 9999
    requires attrs.number.None?
    requires t < Pow10(10)
    ensures !(Create(s, attrs, t, r, now).Rejected? && Create(s, attrs, t, r, now).reason == NumberTooLong)
  {
    OrderNumber.FitsColumn(t, r);
  }

  lemma CreateKeepsValid(s: Store, attrs: NewOrder, t: nat, r: int, now: nat)
    requires 1000 <= r <= 9999
    requires Valid(s)
    ensures Valid(Create(s, attrs, t, r, now).store)
  {
    var res := Create(s, attrs, t, r, now);
    if res.Rejected? {
      forall i | 0 <= i < |s.orders| ensures RowFits(s.orders[i], res.store.users, res.store.nextId) {
        assert RowFits(s.orders[i], s.users, s.nextId);
      }
    } else {
      var s' := res.store;
      assert s'.orders == s.orders + [res.order];
      forall i | 0 <= i < |s'.orders| ensures RowFits(s'.orders[i], s'.users, s'.nextId) {
        if i < |s.orders| { assert RowFits(s.orders[i], s.users, s.nextId); }
      }
      forall i, j | 0 <= i < j < |s'.orders|
        ensures s'.orders[i].id != s'.orders[j].id && s'.orders[i].number != s'.orders[j].number
      {
        if j == |s.orders| {
          assert RowFits(s.orders[i], s.users, s.nextId);
        }
      }
    }
  }

  /** The scopes never share a row, and on rows whose status is one of the
      seeded two they split the table between them. */
  lemma {:induction false} ScopesPartition(orders: seq<Order>)
    requires forall k :: 0 <= k < |orders| ==> IsSeededStatus(orders[k].status)
    ensures multiset(ScopePending(orders)) + multiset(ScopeConfirmed(orders)) == multiset(orders)
    ensures forall o :: !(o in ScopePending(orders) && o in ScopeConfirmed(orders))
    decreases |orders|
  {
    if |orders| > 0 {
      ScopesPartition(orders[1..]);
      assert orders == [orders[0]] + orders[1..];
    }
  }

  /** Deleting a user removes exactly that user's orders, keeps every other
      order in table order, and keeps the schema invariant. */
  lemma DeleteUserCascades(s: Store, uid: int)
    requires Valid(s)
    ensures var s' := DeleteUser(s, uid);
            && (forall o :: o in s'.orders <==> o in s.orders && o.userId != uid)
            && s'.users == s.users - {uid}
            && s'.items == s.items
            && Valid(s')
  {
    NotOfKeepsKeys(s.orders, uid);
    var s' := DeleteUser(s, uid);
    forall i | 0 <= i < |s'.orders| ensures RowFits(s'.orders[i], s'.users, s'.nextId) {
      assert s'.orders[i] in s'.orders;
      var j :| 0 <= j < |s.orders| && s.orders[j] == s'.orders[i];
      assert RowFits(s.orders[j], s.users, s.nextId);
    }
  }

  lemma {:induction false} NotOfKeepsKeys(orders: seq<Order>, uid: int)
    requires KeysUnique(orders)
    ensures KeysUnique(OrdersNotOf(orders, uid))
    decreases |orders|
  {
    if |orders| > 0 {
      var rest := orders[1..];
      assert KeysUnique(rest) by {
        forall i, j | 0 <= i < j < |rest|
          ensures rest[i].id != rest[j].id && rest[i].number != rest[j].number
        {
          assert rest[i] == orders[i + 1] && rest[j] == orders[j + 1];
        }
      }
      NotOfKeepsKeys(rest, uid);
      if orders[0].userId != uid {
        var tail := OrdersNotOf(rest, uid);
        forall x | x in tail ensures x.id != orders[0].id && x.number != orders[0].number {
          var j :| 0 <= j < |rest| && rest[j] == x;
          assert orders[j + 1] == x;
        }
        KeysUniqueCons(orders[0], tail);
      }
    }
  }
}

=== FILE: order_number.dfy ===
/** Order numbers: `"ORD-" . time() . "-" . rand(1000, 9999)`, the same
    expression in the legacy helper and in the Eloquent creating hook. The
    clock reading and the random draw are parameters. */
module OrderNumber {
  import opened Text

  const PREFIX: string := "ORD-"

  /** Width of the `order_number` column (varchar(50)). */
  const COLUMN_WIDTH: nat := 50

  function Generate(t: nat, r: int): (s: string)
    requires 1000 <= r <= 9999
    ensures IsPrefix(PREFIX, s)
    ensures |s| == 9 + |NatToDecimal(t)|
  {
    FourDigitLength(r);
    PREFIX + NatToDecimal(t) + "-" + NatToDecimal(r)
  }

  /** Splits a number of the generated shape back into (time, random). */
  function Parse(s: string): (p: Option<(nat, nat)>)
    ensures p.Some? ==> |s| >= 10 && IsPrefix(PREFIX, s) && s[|s| - 5] == '-'
  {
    if |s| >= 10 && s[..4] == PREFIX && s[|s| - 5] == '-'
       && AllDigits(s[4..|s| - 5]) && AllDigits(s[|s| - 4..])
    then Some((DecimalToNat(s[4..|s| - 5]), DecimalToNat(s[|s| - 4..])))
    else None
  }

  lemma ParseGenerate(t: nat, r: int)
    requires 1000 <= r <= 9999
    ensures Parse(Generate(t, r)) == Some((t, r))
  {
    var s := Generate(t, r);
    var dt := NatToDecimal(t);
    var dr := NatToDecimal(r);
    FourDigitLength(r);
    assert s == PREFIX + dt + "-" + dr;
    assert s[4..|s| - 5] == dt;
    assert s[|s| - 4..] == dr;
    assert s[|s| - 5] == '-';
    DecimalRoundTrip(t);
    DecimalRoundTrip(r);
  }

  /** Different (time, random) pairs never give the same number; equal pairs
      always do, which is why the generator alone cannot promise uniqueness. */
  lemma GenerateInjective(t1: nat, r1: int, t2: nat, r2: int)
    requires 1000 <= r1 <= 9999 && 1000 <= r2 <= 9999
    ensures Generate(t1, r1) == Generate(t2, r2) <==> t1 == t2 && r1 == r2
  {
    if Generate(t1, r1) == Generate(t2, r2) {
      ParseGenerate(t1, r1);
      ParseGenerate(t2, r2);
    }
  }

  /** The text after the last '-' is exactly four digits. */
  lemma SuffixIsFourDigits(t: nat, r: int)
    requires 1000 <= r <= 9999
    ensures var s := Generate(t, r);
            |s| >= 10 && s[|s| - 5] == '-' && AllDigits(s[|s| - 4..]) &&
            forall i :: |s| - 5 < i < |s| ==> s[i] != '-'
  {
    var s := Generate(t, r);
    var dr := NatToDecimal(r);
    FourDigitLength(r);
    assert s[|s| - 4..] == dr;
    forall i | |s| - 5 < i < |s| ensures s[i] != '-' {
      assert s[i] == dr[i - (|s| - 4)];
    }
  }

  /** A ten-digit clock reading gives a 19-character number, well inside the
      50-character column. */
  lemma FitsColumn(t: nat, r: int)
    requires 1000 <= r <= 9999
    requires t < Pow10(10)
    ensures |Generate(t, r)| <= 19 <= COLUMN_WIDTH
  {
    DecimalLengthBound(t, 10);
  }
}

=== FILE: policy.dfy ===
/** `OrderPolicy`: who may view, update, confirm or delete an order. Each
    ability is a pure predicate of the acting user and the order row. */
module Policy {
  import opened Store

  predicate Owns(u: User, o: Order) {
    u.id == o.userId
  }

  /** The owner and any administrator may view. */
  predicate CanView(u: User, o: Order) {
    Owns(u, o) || u.isAdmin
  }

  /** Only the owner, and only while the order is pending. */
  predicate CanUpdate(u: User, o: Order) {
    Owns(u, o) && o.status == PENDING
  }

  predicate CanConfirm(u: User, o: Order) {
    Owns(u, o) && o.status == PENDING
  }

  predicate CanDelete(u: User, o: Order) {
    Owns(u, o) && o.status == PENDING
  }

  /** Admin status grants nothing beyond viewing: the truth table of update
      depends only on ownership and the pending status. */
  lemma UpdateTruthTable(u: User, o: Order)
    ensures CanUpdate(u, o) <==> u.id == o.userId && o.status == PENDING
    ensures CanUpdate(u, o) == CanUpdate(u.(isAdmin := !u.isAdmin), o)
  {
  }

  lemma ViewTruthTable(u: User, o: Order)
    ensures CanView(u, o) <==> u.id == o.userId || u.isAdmin
  {
  }

  /** Confirm and delete have exactly the truth table of update. */
  lemma SameAsUpdate(u: User, o: Order)
    ensures CanConfirm(u, o) == CanUpdate(u, o)
    ensures CanDelete(u, o) == CanUpdate(u, o)
  {
  }

  /** A confirmed order is frozen: no user, owner or administrator, may
      update, confirm or delete it. */
  lemma ConfirmedIsFrozen(u: User, o: Order)
    requires o.status == CONFIRMED
    ensures !CanUpdate(u, o) && !CanConfirm(u, o) && !CanDelete(u, o)
  {
  }

  /** Whoever may update an order may also view it. */
  lemma UpdateImpliesView(u: User, o: Order)
    ensures CanUpdate(u, o) ==> CanView(u, o)
  {
  }

  /** An administrator who does not own the order may view it but not change it. */
  lemma AdminViewsOnly(u: User, o: Order)
    requires u.isAdmin && u.id != o.userId
    ensures CanView(u, o) && !CanUpdate(u, o) && !CanConfirm(u, o) && !CanDelete(u, o)
  {
  }
}

=== FILE: requests.dfy ===
/** The three form requests: `authorize()` runs first, then the rules of
    `rules()` through the validator. */
module Requests {
  import opened Text
  import opened Store
  import Utf8
  import opened Rules

  datatype Verdict = Unauthorized | Invalid | Passed

  /** The product ids in the `products` table. */
  function CatalogIds(catalog: map<string, Product>): set<int> {
    set pn | pn in catalog :: catalog[pn].id
  }

  // ---------------------------------------------------------------------
  // UpdateOrderRequest

  const PRODUCTS_RULES: seq<Rule> := [Required, IsArray, Min(1)]

  function ProductIdRules(catalog: map<string, Product>): seq<Rule> {
    [Required, IsInteger, Exists(CatalogIds(catalog))]
  }

  const QUANTITY_RULES: seq<Rule> := [Required, IsInteger, Min(1), Max(999)]

  /** `UpdateOrderRequest`: a logged-in user; `products` a non-empty array
      whose every entry names an existing product id and a quantity. */
  function UpdateOrderRequest(actor: Option<User>, catalog: map<string, Product>, body: map<string, Value>): (v: Verdict)
    ensures v == Unauthorized <==> actor.None?
  {
    if actor.None? then Unauthorized
    else
      var products := Field(body, "products");
      if Check(PRODUCTS_RULES, products)
         && forall e :: e in Elements(products) ==>
              Check(ProductIdRules(catalog), Sub(e, "product_id")) && Check(QUANTITY_RULES, Sub(e, "quantity"))
      then Passed
      else Invalid
  }

  /** What an accepted products entry looks like, stated directly. */
  predicate EntryOk(catalog: map<string, Product>, e: Value) {
    && e.Record?
    && "product_id" in e.fields && IntValue(e.fields["product_id"]).Some?
    && IntValue(e.fields["product_id"]).value in CatalogIds(catalog)
    && "quantity" in e.fields && IntValue(e.fields["quantity"]).Some?
    && 1 <= IntValue(e.fields["quantity"]).value <= 999
  }

  lemma QuantityRulesIff(f: Option<Value>)
    ensures Check(QUANTITY_RULES, f) <==>
              f.Some? && IntValue(f.value).Some? && 1 <= IntValue(f.value).value <= 999
  {
    CheckAll(QUANTITY_RULES, f, 0);
    assert HasNumericRule(QUANTITY_RULES) by { assert QUANTITY_RULES[1].IsInteger?; }
    if f.Some? && f.value.Str? && IntLiteral(f.value.s).Some? {
      IntLiteralNotBlank(f.value.s);
    }
    if Check(QUANTITY_RULES, f) {
      assert Validatable(QUANTITY_RULES[0], QUANTITY_RULES, f);
      if !BlankString(ValueOrNull(f)) {
        assert Validatable(QUANTITY_RULES[1], QUANTITY_RULES, f);
        assert Validatable(QUANTITY_RULES[2], QUANTITY_RULES, f);
        assert Validatable(QUANTITY_RULES[3], QUANTITY_RULES, f);
      }
    }
  }

  /** The request passes exactly for a logged-in user sending a non-empty
      `products` array whose every entry has an existing integer product id
      and an integer quantity in 1..999. */
  lemma UpdateAcceptsIff(actor: Option<User>, catalog: map<string, Product>, body: map<string, Value>)
    ensures UpdateOrderRequest(actor, catalog, body) == Passed <==>
              && actor.Some?
              && "products" in body && NonEmptyArray(body["products"])
              && forall e :: e in Elements(Some(body["products"])) ==> EntryOk(catalog, e)
  {
    var products := Field(body, "products");
    NonEmptyArrayRulesIff(products);
    forall e | e in Elements(products)
      ensures (Check(ProductIdRules(catalog), Sub(e, "product_id")) && Check(QUANTITY_RULES, Sub(e, "quantity")))
              <==> EntryOk(catalog, e)
    {
      ExistingIdRulesIff(CatalogIds(catalog), Sub(e, "product_id"));
      QuantityRulesIff(Sub(e, "quantity"));
    }
  }

  /** The keys of a products entry that carry rules. */
  const PRODUCT_KEYS: set<string> := {"product_id", "quantity"}

  /** One entry of `validated()['products']`: an array entry keeps only the
      keys that carry rules; anything else is kept as sent. */
  function ValidatedEntry(e: Value): (r: Value)
    ensures r.Record? <==> e.Record?
    ensures e.Record? ==> r.fields.Keys == e.fields.Keys * PRODUCT_KEYS
    ensures e.Record? ==> forall k :: k in r.fields ==> r.fields[k] == e.fields[k]
    ensures !e.Record? ==> r == e
  {
    if e.Record? then Record(map k | k in e.fields && k in PRODUCT_KEYS :: e.fields[k]) else e
  }

  /** `$request->validated()['products']`: the array as sent, position by
      position or key by key, with every entry cut down to its rule keys. */
  function ValidatedProducts(body: map<string, Value>): (r: Value)
    ensures "products" !in body ==> r == Null
    ensures "products" in body && body["products"].List? ==>
              && r.List? && |r.elems| == |body["products"].elems|
              && forall i :: 0 <= i < |r.elems| ==> r.elems[i] == ValidatedEntry(body["products"].elems[i])
    ensures "products" in body && body["products"].Record? ==>
              && r.Record? && r.fields.Keys == body["products"].fields.Keys
              && forall k :: k in r.fields ==> r.fields[k] == ValidatedEntry(body["products"].fields[k])
  {
    if "products" !in body then Null
    else match body["products"]
      case List(es) => List(seq(|es|, i requires 0 <= i < |es| => ValidatedEntry(es[i])))
      case Record(m) => Record(map k | k in m :: ValidatedEntry(m[k]))
      case v => v
  }

  /** Once the request has passed, the products handed on form a non-empty
      array whose every entry has exactly the two rule keys, an existing
      product id and a quantity in 1..999. */
  lemma ValidatedProductsExact(actor: Option<User>, catalog: map<string, Product>, body: map<string, Value>)
    requires UpdateOrderRequest(actor, catalog, body) == Passed
    ensures NonEmptyArray(ValidatedProducts(body))
    ensures forall e :: e in Elements(Some(ValidatedProducts(body))) ==>
              e.Record? && e.fields.Keys == PRODUCT_KEYS && EntryOk(catalog, e)
  {
    UpdateAcceptsIff(actor, catalog, body);
    var v := body["products"];
    var r := ValidatedProducts(body);
    forall e | e in Elements(Some(r))
      ensures e.Record? && e.fields.Keys == PRODUCT_KEYS && EntryOk(catalog, e)
    {
      var src: Value;
      if v.List? {
        var i :| 0 <= i < |r.elems| && r.elems[i] == e;
        src := v.elems[i];
        assert src in Elements(Some(v));
      } else {
        var k :| k in r.fields && r.fields[k] == e;
        src := v.fields[k];
        assert src in Elements(Some(v));
      }
      assert e == ValidatedEntry(src);
      assert EntryOk(catalog, src);
    }
    if v.Record? {
      var k :| k in v.fields;
      assert k in r.fields;
    }
  }

  // ---------------------------------------------------------------------
  // ConfirmOrderRequest

  const ADDRESS_RULES: seq<Rule> := [Required, IsString, Max(1000), Min(10)]

  /** `ConfirmOrderRequest`: a logged-in user and a `shipping_address`. */
  function ConfirmOrderRequest(actor: Option<User>, body: map<string, Value>): (v: Verdict)
    ensures v == Unauthorized <==> actor.None?
  {
    if actor.None? then Unauthorized
    else if Check(ADDRESS_RULES, Field(body, "shipping_address")) then Passed
    else Invalid
  }

  /** `$request->validated()['shipping_address']`: the address as sent. */
  function ValidatedAddress(body: map<string, Value>): (a: string)
    ensures "shipping_address" in body && body["shipping_address"].Str? ==> a == body["shipping_address"].s
  {
    if "shipping_address" in body && body["shipping_address"].Str? then body["shipping_address"].s else ""
  }

  /** The address passes exactly when it is a non-blank string of 10 to 1000
      characters: a missing, null or blank address is refused, an accepted
      one has 10..1000 characters, and every such string is accepted. */
  lemma ConfirmAcceptsIff(actor: Option<User>, body: map<string, Value>)
    ensures ConfirmOrderRequest(actor, body) == Passed <==>
              && actor.Some?
              && "shipping_address" in body && body["shipping_address"].Str?
              && var s := body["shipping_address"].s;
                 !IsBlank(s) && 10 <= |s| <= 1000
  {
    var f := Field(body, "shipping_address");
    CheckAll(ADDRESS_RULES, f, 0);
    assert !HasNumericRule(ADDRESS_RULES);
    if Check(ADDRESS_RULES, f) {
      assert Validatable(ADDRESS_RULES[0], ADDRESS_RULES, f);
      if !BlankString(ValueOrNull(f)) {
        assert Validatable(ADDRESS_RULES[1], ADDRESS_RULES, f);
        assert Validatable(ADDRESS_RULES[2], ADDRESS_RULES, f);
        assert Validatable(ADDRESS_RULES[3], ADDRESS_RULES, f);
      }
    }
  }

  // ---------------------------------------------------------------------
  // SearchOrdersRequest

  /** The class `[a-zA-Z0-9ก-๙\s\-@.]` read byte by byte, as PCRE reads it
      without the `u` modifier. The UTF-8 text of `ก-๙` is the bytes
      E0 B8 81 `-` E0 B9 99, so the class holds E0, B8, the byte range
      81..E0, B9 and 99; `\s` is ASCII whitespace (tab, line feed, vertical
      tab, form feed, carriage return, space). */
  predicate SearchByte(b: Utf8.byte) {
    || ('a' as int <= b as int <= 'z' as int)
    || ('A' as int <= b as int <= 'Z' as int)
    || ('0' as int <= b as int <= '9' as int)
    || (0x09 <= b <= 0x0D) || b == 0x20
    || b as int == '-' as int || b as int == '@' as int || b as int == '.' as int
    || (0x81 <= b <= 0xE0)
  }

  const SEARCH_RULES: seq<Rule> := [Nullable, IsString, Max(100), BytePattern(SearchByte)]

  predicate IsAdmin(actor: Option<User>) {
    actor.Some? && actor.value.isAdmin
  }

  /** `SearchOrdersRequest` as written: an administrator, and an optional
      `search` string checked by the byte-level pattern. */
  function SearchOrdersRequest(actor: Option<User>, body: map<string, Value>): (v: Verdict)
    ensures v == Unauthorized <==> !IsAdmin(actor)
  {
    if !IsAdmin(actor) then Unauthorized
    else if Check(SEARCH_RULES, Field(body, "search")) then Passed
    else Invalid
  }

  /** The request passes exactly for an administrator whose `search` is
      absent, null, blank, or a string of at most 100 characters whose every
      UTF-8 byte is in the byte class. */
  lemma SearchAcceptsIff(actor: Option<User>, body: map<string, Value>)
    ensures SearchOrdersRequest(actor, body) == Passed <==>
              && IsAdmin(actor)
              && ("search" in body ==>
                    || body["search"].Null?
                    || (&& body["search"].Str?
                        && (|| IsBlank(body["search"].s)
                            || (|body["search"].s| <= 100
                                && forall b :: b in Utf8.Encode(body["search"].s) ==> SearchByte(b)))))
  {
    var f := Field(body, "search");
    CheckAll(SEARCH_RULES, f, 0);
    assert HasNullable(SEARCH_RULES) by { assert SEARCH_RULES[0].Nullable?; }
    assert !HasNumericRule(SEARCH_RULES);
    if f.Some? && f.value.Str? && !IsBlank(f.value.s) {
      EncodeNonEmpty(f.value.s);
    }
    if Check(SEARCH_RULES, f) && f.Some? && !f.value.Null? && !BlankString(f.value) {
      assert Validatable(SEARCH_RULES[1], SEARCH_RULES, f);
      assert Validatable(SEARCH_RULES[2], SEARCH_RULES, f);
      assert Validatable(SEARCH_RULES[3], SEARCH_RULES, f);
    }
  }

  /** The characters that would turn a LIKE pattern or a quoted SQL string
      into something other than a literal substring test. */
  predicate LikeSpecial(c: char) {
    c == '%' || c == '_' || c == '\'' || c == '"' || c == '\\'
  }

  /** An accepted search holds no LIKE wildcard, quote or backslash, so
      `%search%` matches exactly the rows containing the text. */
  lemma AcceptedSearchIsLiteral(actor: Option<User>, body: map<string, Value>)
    requires SearchOrdersRequest(actor, body) == Passed
    requires "search" in body && body["search"].Str?
    ensures forall i :: 0 <= i < |body["search"].s| ==> !LikeSpecial(body["search"].s[i])
  {
    var s := body["search"].s;
    SearchAcceptsIff(actor, body);
    forall i | 0 <= i < |s| ensures !LikeSpecial(s[i]) {
      if !IsBlank(s) {
        Utf8.EncodeCharBytes(s, i);
        if (s[i] as int) < 0x80 {
          assert Utf8.EncodeChar(s[i])[0] in Utf8.Encode(s);
        }
      } else {
        assert IsTrimChar(s[i]);
      }
    }
  }

  /** As written, the pattern refuses U+0E40 (Thai SARA E, bytes E0 B9 80):
      its last byte 80 is outside every part of the byte class, although the
      character lies inside `ก-๙`. */
  lemma ThaiSaraERejected(admin: User)
    requires admin.isAdmin
    ensures SearchOrdersRequest(Some(admin), map["search" := Str("\U{0E40}")]) == Invalid
  {
    var body := map["search" := Str("\U{0E40}")];
    var s := "\U{0E40}";
    assert Utf8.Encode(s) == [0xE0, 0xB9, 0x80];
    assert Utf8.Encode(s)[2] == 0x80 && !SearchByte(0x80);
    assert !IsBlank(s) by { assert !IsTrimChar(s[0]); }
    SearchAcceptsIff(Some(admin), body);
  }

  /** As written, the pattern lets U+00E9 (bytes C3 A9) through, though it
      is neither ASCII nor Thai. */
  lemma LatinAccentAccepted(admin: User)
    requires admin.isAdmin
    ensures SearchOrdersRequest(Some(admin), map["search" := Str("\U{00E9}")]) == Passed
  {
    var body := map["search" := Str("\U{00E9}")];
    assert Utf8.Encode("\U{00E9}") == [0xC3, 0xA9];
    SearchAcceptsIff(Some(admin), body);
  }

  /** The class the comment beside the rule describes, read per character:
      ASCII letters and digits, Thai U+0E01..U+0E59, ASCII whitespace, '-',
      '@' and '.'. With the `u` modifier PCRE would also let `\s` match
      Unicode spaces such as U+00A0; this class keeps `\s` to ASCII. */
  predicate SearchChar(c: char) {
    || ('a' <= c <= 'z') || ('A' <= c <= 'Z') || ('0' <= c <= '9')
    || (0x09 <= c as int <= 0x0D) || c == ' '
    || c == '-' || c == '@' || c == '.'
    || (0x0E01 <= c as int <= 0x0E59)
  }

  const INTENDED_SEARCH_RULES: seq<Rule> := [Nullable, IsString, Max(100), CharPattern(SearchChar)]

  /** The corrected `SearchOrdersRequest`, with the pattern read per character. */
  function SearchOrdersRequestIntended(actor: Option<User>, body: map<string, Value>): (v: Verdict)
    ensures v == Unauthorized <==> !IsAdmin(actor)
  {
    if !IsAdmin(actor) then Unauthorized
    else if Check(INTENDED_SEARCH_RULES, Field(body, "search")) then Passed
    else Invalid
  }

  lemma IntendedSearchAcceptsIff(actor: Option<User>, body: map<string, Value>)
    ensures SearchOrdersRequestIntended(actor, body) == Passed <==>
              && IsAdmin(actor)
              && ("search" in body ==>
                    || body["search"].Null?
                    || (&& body["search"].Str?
                        && (|| IsBlank(body["search"].s)
                            || (|body["search"].s| <= 100
                                && forall i :: 0 <= i < |body["search"].s| ==> SearchChar(body["search"].s[i])))))
  {
    var f := Field(body, "search");
    CheckAll(INTENDED_SEARCH_RULES, f, 0);
    assert HasNullable(INTENDED_SEARCH_RULES) by { assert INTENDED_SEARCH_RULES[0].Nullable?; }
    assert !HasNumericRule(INTENDED_SEARCH_RULES);
    if Check(INTENDED_SEARCH_RULES, f) && f.Some? && !f.value.Null? && !BlankString(f.value) {
      assert Validatable(INTENDED_SEARCH_RULES[1], INTENDED_SEARCH_RULES, f);
      assert Validatable(INTENDED_SEARCH_RULES[2], INTENDED_SEARCH_RULES, f);
      assert Validatable(INTENDED_SEARCH_RULES[3], INTENDED_SEARCH_RULES, f);
    }
  }

  /** Corrected, every Thai text of 1..100 characters from U+0E01..U+0E59
      is accepted, SARA E included. */
  lemma IntendedAcceptsThai(actor: Option<User>, s: string)
    requires IsAdmin(actor)
    requires 1 <= |s| <= 100
    requires forall i :: 0 <= i < |s| ==> 0x0E01 <= s[i] as int <= 0x0E59
    ensures SearchOrdersRequestIntended(actor, map["search" := Str(s)]) == Passed
  {
    IntendedSearchAcceptsIff(actor, map["search" := Str(s)]);
  }

  /** Corrected, U+00E9 is refused. */
  lemma IntendedRejectsLatinAccent(admin: User)
    requires admin.isAdmin
    ensures SearchOrdersRequestIntended(Some(admin), map["search" := Str("\U{00E9}")]) == Invalid
  {
    var body := map["search" := Str("\U{00E9}")];
    IntendedSearchAcceptsIff(Some(admin), body);
    assert !SearchChar("\U{00E9}"[0]);
  }

  /** The two patterns differ only on text outside ASCII: for an absent,
      null or ASCII search the request passes or fails the same way. */
  lemma SearchGatesAgreeOnAscii(actor: Option<User>, body: map<string, Value>)
    requires "search" in body && body["search"].Str? ==> Utf8.IsAscii(body["search"].s)
    ensures SearchOrdersRequest(actor, body) == SearchOrdersRequestIntended(actor, body)
  {
    SearchAcceptsIff(actor, body);
    IntendedSearchAcceptsIff(actor, body);
    if "search" in body && body["search"].Str? {
      var q := body["search"].s;
      Utf8.AsciiEncode(q);
      var bs := Utf8.Encode(q);
      forall i | 0 <= i < |q| ensures SearchByte(bs[i]) <==> SearchChar(q[i]) {
        assert bs[i] as int == q[i] as int;
      }
      assert (forall b :: b in bs ==> SearchByte(b)) <==> (forall i :: 0 <= i < |q| ==> SearchChar(q[i])) by {
        if forall i :: 0 <= i < |q| ==> SearchChar(q[i]) {
          forall b | b in bs ensures SearchByte(b) {
            var k :| 0 <= k < |bs| && bs[k] == b;
          }
        }
        if forall b :: b in bs ==> SearchByte(b) {
          forall i | 0 <= i < |q| ensures SearchChar(q[i]) {
            assert bs[i] in bs;
          }
        }
      }
    }
  }

  /** An accepted search stays literal under the corrected pattern too. */
  lemma IntendedSearchIsLiteral(actor: Option<User>, body: map<string, Value>)
    requires SearchOrdersRequestIntended(actor, body) == Passed
    requires "search" in body && body["search"].Str?
    ensures forall i :: 0 <= i < |body["search"].s| ==> !LikeSpecial(body["search"].s[i])
  {
    var s := body["search"].s;
    IntendedSearchAcceptsIff(actor, body);
    forall i | 0 <= i < |s| ensures !LikeSpecial(s[i]) {
      if IsBlank(s) {
        assert IsTrimChar(s[i]);
      }
    }
  }
}

=== FILE: rules.dfy ===
/** The part of Laravel's validator that the form requests of this system
    rely on: request values, the rules they name, and the loop that runs an
    attribute's rule list. Only the verdict is modelled (pass or fail), not the
    messages; stopping after the first failure changes the messages only, so
    it is not modelled. */
module Rules {
  import opened Text
  import Utf8

  /** A decoded request value. Form and query input arrive as `Str`; `Num`
      is a JSON integer; `List` is a PHP list and `Record` an array with
      string keys. */
  datatype Value = Null | Str(s: string) | Num(n: int) | List(elems: seq<Value>) | Record(fields: map<string, Value>)

  /** The rules named by the requests. A regular expression of the shape
      `/^[class]+$/` is given by its class: `BytePattern` without the `u`
      modifier (matched against UTF-8 bytes), `CharPattern` with it. Because
      every class used here contains the newline, the `$` that PCRE also lets
      match before a final newline accepts nothing extra. */
  datatype Rule =
    | Required
    | Nullable
    | IsString
    | IsInteger
    | IsArray
    | Min(bound: int)
    | Max(bound: int)
    | Exists(ids: set<int>)
    | BytePattern(inByteClass: Utf8.byte -> bool)
    | CharPattern(inCharClass: char -> bool)

  /** `required` is the only implicit rule used: it runs on absent and blank values. */
  predicate Implicit(r: Rule) {
    r.Required?
  }

  predicate HasNullable(rules: seq<Rule>) {
    exists k :: 0 <= k < |rules| && rules[k].Nullable?
  }

  /** `integer` makes `min` and `max` compare the number itself. */
  predicate HasNumericRule(rules: seq<Rule>) {
    exists k :: 0 <= k < |rules| && rules[k].IsInteger?
  }

  /** Digits without a superfluous leading zero, as PHP's integer filter
      accepts them. */
  function Unsigned(s: string): (r: Option<nat>)
    ensures r.Some? ==> |s| > 0 && AllDigits(s)
  {
    if |s| > 0 && AllDigits(s) && (|s| == 1 || s[0] != '0') then Some(DecimalToNat(s)) else None
  }

  /** PHP's integer filter on a string: an optional sign, then digits. */
  function IntLiteral(s: string): (r: Option<int>)
    ensures r.Some? ==> |s| > 0 && !IsTrimChar(s[0])
  {
    if |s| > 0 && (s[0] == '-' || s[0] == '+') then
      match Unsigned(s[1..])
      case None => None
      case Some(n) => Some(if s[0] == '-' then 0 - n else n)
    else
      match Unsigned(s)
      case None => None
      case Some(n) => Some(n)
  }

  /** The integer a value stands for, when the `integer` rule accepts it. */
  function IntValue(v: Value): Option<int> {
    match v
    case Num(n) => Some(n)
    case Str(s) => IntLiteral(s)
    case _ => None
  }

  /** PHP's string conversion of an integer. */
  function NumText(n: int): (s: string)
    ensures |s| >= 1
  {
    if n < 0 then "-" + NatToDecimal(0 - n) else NatToDecimal(n)
  }

  /** The text a pattern rule matches against; arrays and null have none. */
  function TextOf(v: Value): Option<string> {
    match v
    case Str(s) => Some(s)
    case Num(n) => Some(NumText(n))
    case _ => None
  }

  /** `getSize`: the number for a numeric attribute, the element count for an
      array, and otherwise the length in characters (`mb_strlen`). */
  function Size(v: Value, rules: seq<Rule>): int {
    if HasNumericRule(rules) && IntValue(v).Some? then IntValue(v).value
    else
      match v
      case List(es) => |es|
      case Record(m) => |m|
      case Str(s) => |s|
      case Num(n) => |NumText(n)|
      case Null => 0
  }

  predicate BlankString(v: Value) {
    v.Str? && IsBlank(v.s)
  }

  /** `isValidatable`: a non-implicit rule is skipped when the attribute is
      absent, is a blank string, or is null under `nullable`. */
  predicate Validatable(rule: Rule, rules: seq<Rule>, v: Option<Value>) {
    var present := if v.Some? && BlankString(v.value) then Implicit(rule) else v.Some? || Implicit(rule);
    present && (Implicit(rule) || !HasNullable(rules) || !(v.Some? && v.value.Null?))
  }

  /** Each rule's own test on the attribute's value (null when absent). */
  predicate Holds(rule: Rule, rules: seq<Rule>, v: Value) {
    match rule
    case Required =>
      !(v.Null? || BlankString(v) || (v.List? && |v.elems| == 0) || (v.Record? && |v.fields| == 0))
    case Nullable => true
    case IsString => v.Str?
    case IsInteger => IntValue(v).Some?
    case IsArray => v.List? || v.Record?
    case Min(n) => Size(v, rules) >= n
    case Max(n) => Size(v, rules) <= n
    case Exists(ids) => IntValue(v).Some? && IntValue(v).value in ids
    case BytePattern(p) =>
      TextOf(v).Some? && |Utf8.Encode(TextOf(v).value)| > 0
      && forall b :: b in Utf8.Encode(TextOf(v).value) ==> p(b)
    case CharPattern(p) =>
      TextOf(v).Some? && |TextOf(v).value| > 0
      && forall i :: 0 <= i < |TextOf(v).value| ==> p(TextOf(v).value[i])
  }

  function ValueOrNull(v: Option<Value>): Value {
    if v.Some? then v.value else Null
  }

  /** The validator's loop over one attribute's rules, from the `k`-th on. */
  predicate CheckFrom(rules: seq<Rule>, k: nat, v: Option<Value>)
    decreases |rules| - k
  {
    k >= |rules|
    || ((!Validatable(rules[k], rules, v) || Holds(rules[k], rules, ValueOrNull(v))) && CheckFrom(rules, k + 1, v))
  }

  predicate Check(rules: seq<Rule>, v: Option<Value>) {
    CheckFrom(rules, 0, v)
  }

  /** The attribute passes exactly when every rule that applies to it holds. */
  lemma {:induction false} CheckAll(rules: seq<Rule>, v: Option<Value>, k: nat)
    requires k <= |rules|
    ensures CheckFrom(rules, k, v) <==>
              forall j :: k <= j < |rules| && Validatable(rules[j], rules, v) ==> Holds(rules[j], rules, ValueOrNull(v))
    decreases |rules| - k
  {
    if k < |rules| {
      CheckAll(rules, v, k + 1);
    }
  }

  function Field(m: map<string, Value>, key: string): Option<Value> {
    if key in m then Some(m[key]) else None
  }

  /** The values a `key.*` wildcard ranges over. */
  function Elements(v: Option<Value>): set<Value> {
    match v
    case Some(List(es)) => set e | e in es
    case Some(Record(m)) => m.Values
    case _ => {}
  }

  /** The attribute `e.key` of one wildcard element; a non-array element has none. */
  function Sub(e: Value, key: string): Option<Value> {
    if e.Record? then Field(e.fields, key) else None
  }

  predicate NonEmptyArray(v: Value) {
    (v.List? && |v.elems| > 0) || (v.Record? && |v.fields| > 0)
  }

  /** `required|array|min:1` passes exactly on a non-empty array. */
  lemma NonEmptyArrayRulesIff(p: Option<Value>)
    ensures Check([Required, IsArray, Min(1)], p) <==> p.Some? && NonEmptyArray(p.value)
  {
    var rules := [Required, IsArray, Min(1)];
    CheckAll(rules, p, 0);
    if Check(rules, p) {
      assert Validatable(rules[0], rules, p);
      if !BlankString(ValueOrNull(p)) {
        assert Validatable(rules[1], rules, p);
        assert Validatable(rules[2], rules, p);
      }
    }
  }

  /** `required|integer|exists:table,column` passes exactly on an integer
      that is one of the column's values. */
  lemma ExistingIdRulesIff(ids: set<int>, f: Option<Value>)
    ensures Check([Required, IsInteger, Exists(ids)], f) <==>
              f.Some? && IntValue(f.value).Some? && IntValue(f.value).value in ids
  {
    var rules := [Required, IsInteger, Exists(ids)];
    CheckAll(rules, f, 0);
    if f.Some? && f.value.Str? && IntLiteral(f.value.s).Some? {
      IntLiteralNotBlank(f.value.s);
    }
    if Check(rules, f) {
      assert Validatable(rules[0], rules, f);
      if !BlankString(ValueOrNull(f)) {
        assert Validatable(rules[1], rules, f);
        assert Validatable(rules[2], rules, f);
      }
    }
  }

  /** A string PHP's integer filter accepts is never blank. */
  lemma IntLiteralNotBlank(s: string)
    requires IntLiteral(s).Some?
    ensures !IsBlank(s)
  {
  }

  /** A non-empty string always has a non-empty UTF-8 encoding. */
  lemma EncodeNonEmpty(s: string)
    requires |s| > 0
    ensures |Utf8.Encode(s)| > 0
  {
  }
}

=== FILE: store.dfy ===
/** The in-memory store: the `orders` and `order_details` tables as rows in
    insertion order, the product catalog keyed by product number, and the
    users keyed by id. Money is in integer cents. */
module Store {
  import opened Text
  import OrderNumber

  /** `ProductStatus::PENDING` and `ProductStatus::CONFIRMED`, the two rows
      seeded into `product_status`. */
  const PENDING: int := 1
  const CONFIRMED: int := 2

  predicate IsSeededStatus(status: int) {
    status == PENDING || status == CONFIRMED
  }

  datatype User = User(id: int, firstName: string, lastName: string, email: string, isAdmin: bool)

  /** A catalog row as the order code reads it: `product_id` and `price`. */
  datatype Product = Product(id: int, priceCents: int)

  /** A row of `orders`. `createdAt` is None when the row was inserted without
      a timestamp (the `timestamps()` columns are nullable). */
  datatype Order = Order(
    id: int,
    number: string,
    userId: int,
    status: int,
    shippingAddress: Option<string>,
    totalCents: int,
    createdAt: Option<nat>)

  /** A row of `order_details`. */
  datatype LineItem = LineItem(
    orderId: int,
    productId: int,
    productNumber: string,
    quantity: int,
    unitPriceCents: int,
    subtotalCents: int)

  datatype Store = Store(
    orders: seq<Order>,
    items: seq<LineItem>,
    catalog: map<string, Product>,
    users: map<int, User>,
    nextId: int)

  /** The constraints of the `orders` table on one row: an auto-increment id
      below the next one to hand out, an order number within varchar(50), a
      status that references a seeded `product_status` row, and an owner that
      references an existing user. */
  predicate RowFits(o: Order, users: map<int, User>, nextId: int) {
    && 1 <= o.id < nextId
    && |o.number| <= OrderNumber.COLUMN_WIDTH
    && IsSeededStatus(o.status)
    && o.userId in users
  }

  /** Primary key and the unique index on `order_number`. */
  predicate KeysUnique(orders: seq<Order>) {
    forall i, j :: 0 <= i < j < |orders| ==>
      orders[i].id != orders[j].id && orders[i].number != orders[j].number
  }

  /** The schema invariant every store operation must keep. Detail rows only
      ever name order ids that the auto-increment counter has handed out. */
  predicate Valid(s: Store) {
    && s.nextId >= 1
    && (forall i :: 0 <= i < |s.orders| ==> RowFits(s.orders[i], s.users, s.nextId))
    && KeysUnique(s.orders)
    && (forall k :: 0 <= k < |s.items| ==> s.items[k].orderId < s.nextId)
  }

  /** Rewriting rows without touching their id or number keeps the keys unique. */
  lemma KeysUniqueTransfer(a: seq<Order>, b: seq<Order>)
    requires KeysUnique(a)
    requires |a| == |b|
    requires forall k :: 0 <= k < |a| ==> a[k].id == b[k].id && a[k].number == b[k].number
    ensures KeysUnique(b)
  {
  }

  predicate NumberTaken(orders: seq<Order>, number: string) {
    exists i :: 0 <= i < |orders| && orders[i].number == number
  }

  predicate IdTaken(orders: seq<Order>, id: int) {
    exists i :: 0 <= i < |orders| && orders[i].id == id
  }

  /** The first row whose order number is `number`: what
      `SELECT * FROM orders WHERE order_number = ...` followed by one fetch yields. */
  function FindByNumber(orders: seq<Order>, number: string): (r: Option<nat>)
    ensures r.Some? ==> r.value < |orders| && orders[r.value].number == number
    ensures r.Some? ==> forall j :: 0 <= j < r.value ==> orders[j].number != number
    ensures r.None? <==> !NumberTaken(orders, number)
    decreases |orders|
  {
    if |orders| == 0 then None
    else if orders[0].number == number then Some(0)
    else match FindByNumber(orders[1..], number)
      case None => None
      case Some(k) => Some(k + 1)
  }

  /** Under the unique index the row found is the only row with that number. */
  lemma FindByNumberUnique(orders: seq<Order>, number: string, i: nat)
    requires KeysUnique(orders)
    requires i < |orders| && orders[i].number == number
    ensures FindByNumber(orders, number) == Some(i)
  {
  }

  /** The details of order `oid`, in table order. */
  function ItemsOf(items: seq<LineItem>, oid: int): (r: seq<LineItem>)
    ensures |r| <= |items|
    ensures forall k :: 0 <= k < |r| ==> r[k].orderId == oid
    ensures forall x :: x in r <==> x in items && x.orderId == oid
    decreases |items|
  {
    if |items| == 0 then []
    else if items[0].orderId == oid then [items[0]] + ItemsOf(items[1..], oid)
    else ItemsOf(items[1..], oid)
  }

  /** `DELETE FROM order_details WHERE order_id = oid`. */
  function DropItemsOf(items: seq<LineItem>, oid: int): (r: seq<LineItem>)
    ensures |r| <= |items|
    ensures forall x :: x in r <==> x in items && x.orderId != oid
    decreases |items|
  {
    if |items| == 0 then []
    else if items[0].orderId == oid then DropItemsOf(items[1..], oid)
    else [items[0]] + DropItemsOf(items[1..], oid)
  }

  lemma {:induction false} ItemsOfAppend(a: seq<LineItem>, b: seq<LineItem>, oid: int)
    ensures ItemsOf(a + b, oid) == ItemsOf(a, oid) + ItemsOf(b, oid)
    decreases |a|
  {
    if |a| == 0 {
      assert a + b == b;
    } else {
      assert (a + b)[0] == a[0];
      assert (a + b)[1..] == a[1..] + b;
      ItemsOfAppend(a[1..], b, oid);
    }
  }

  /** After the delete, order `oid` has no details and every other order keeps
      exactly the details it had, in the same order. */
  lemma {:induction false} DropItemsOfSpec(items: seq<LineItem>, oid: int, other: int)
    ensures ItemsOf(DropItemsOf(items, oid), oid) == []
    ensures other != oid ==> ItemsOf(DropItemsOf(items, oid), other) == ItemsOf(items, other)
    decreases |items|
  {
    if |items| > 0 {
      DropItemsOfSpec(items[1..], oid, other);
      if items[0].orderId != oid {
        ItemsOfAppend([items[0]], DropItemsOf(items[1..], oid), oid);
        ItemsOfAppend([items[0]], DropItemsOf(items[1..], oid), other);
      }
    }
  }

  lemma KeysUniqueCons(h: Order, t: seq<Order>)
    requires KeysUnique(t)
    requires forall x :: x in t ==> x.id != h.id && x.number != h.number
    ensures KeysUnique([h] + t)
  {
    var r := [h] + t;
    forall i, j | 0 <= i < j < |r| ensures r[i].id != r[j].id && r[i].number != r[j].number {
      assert r[j] == t[j - 1];
      if i == 0 {
        assert r[j] in t;
      } else {
        assert r[i] == t[i - 1];
      }
    }
  }

  lemma ItemsOfNone(items: seq<LineItem>, oid: int)
    requires forall k :: 0 <= k < |items| ==> items[k].orderId != oid
    ensures ItemsOf(items, oid) == []
  {
  }

  lemma {:induction false} ItemsOfAll(items: seq<LineItem>, oid: int)
    requires forall k :: 0 <= k < |items| ==> items[k].orderId == oid
    ensures ItemsOf(items, oid) == items
    decreases |items|
  {
    if |items| > 0 {
      ItemsOfAll(items[1..], oid);
      assert items == [items[0]] + items[1..];
    }
  }

  /** Sum of the subtotals of some details. */
  function SumSubtotals(lines: seq<LineItem>): int
    decreases |lines|
  {
    if |lines| == 0 then 0 else lines[0].subtotalCents + SumSubtotals(lines[1..])
  }
}

=== FILE: text.dfy ===
/** Small text utilities shared by the order model: an Option type, decimal
    rendering and parsing of natural numbers, substring search, and the two
    PHP notions of "empty" that the source relies on. */
module Text {

  datatype Option<+T> = None | Some(value: T)

  predicate IsDigit(c: char) {
    '0' <= c <= '9'
  }

  predicate AllDigits(s: string) {
    forall i :: 0 <= i < |s| ==> IsDigit(s[i])
  }

  function DigitChar(d: nat): (c: char)
    requires d < 10
    ensures IsDigit(c)
    ensures DigitValue(c) == d
  {
    ['0', '1', '2', '3', '4', '5', '6', '7', '8', '9'][d]
  }

  function DigitValue(c: char): (d: nat)
    requires IsDigit(c)
    ensures d < 10
  {
    (c as int) - ('0' as int)
  }

  /** PHP's string conversion of a non-negative integer: shortest decimal
      form, no sign, no leading zeros. */
  function NatToDecimal(n: nat): (s: string)
    ensures |s| >= 1
    ensures AllDigits(s)
    decreases n
  {
    if n < 10 then [DigitChar(n)] else NatToDecimal(n / 10) + [DigitChar(n % 10)]
  }

  /** Reads a digit string back as a number (the empty string reads as 0). */
  function DecimalToNat(s: string): nat
    requires AllDigits(s)
    decreases |s|
  {
    if |s| == 0 then 0 else DecimalToNat(s[..|s| - 1]) * 10 + DigitValue(s[|s| - 1])
  }

  lemma {:induction false} DecimalRoundTrip(n: nat)
    ensures DecimalToNat(NatToDecimal(n)) == n
    decreases n
  {
    if n >= 10 {
      var s := NatToDecimal(n);
      var front := NatToDecimal(n / 10);
      assert s == front + [DigitChar(n % 10)];
      assert s[..|s| - 1] == front;
      DecimalRoundTrip(n / 10);
    }
  }

  lemma NatToDecimalInjective(a: nat, b: nat)
    requires NatToDecimal(a) == NatToDecimal(b)
    ensures a == b
  {
    DecimalRoundTrip(a);
    DecimalRoundTrip(b);
  }

  function Pow10(k: nat): (p: nat)
    ensures p >= 1
  {
    if k == 0 then 1 else 10 * Pow10(k - 1)
  }

  /** A number below 10^k is rendered in at most k digits. */
  lemma {:induction false} DecimalLengthBound(n: nat, k: nat)
    requires 1 <= k
    requires n < Pow10(k)
    ensures |NatToDecimal(n)| <= k
    decreases k
  {
    assert Pow10(1) == 10;
    if n >= 10 {
      assert n / 10 < Pow10(k - 1);
      DecimalLengthBound(n / 10, k - 1);
    }
  }

  /** A number in [10^(k-1), 10^k) is rendered in exactly k digits. */
  lemma {:induction false} DecimalLengthExact(n: nat, k: nat)
    requires 1 <= k
    requires Pow10(k - 1) <= n < Pow10(k)
    ensures |NatToDecimal(n)| == k
    decreases k
  {
    assert Pow10(1) == 10;
    if k >= 2 {
      assert Pow10(k - 1) == 10 * Pow10(k - 2);
      assert Pow10(k - 2) <= n / 10 < Pow10(k - 1);
      DecimalLengthExact(n / 10, k - 1);
    }
  }

  /** Every number from 1000 to 9999 is rendered in exactly four digits. */
  lemma FourDigitLength(r: int)
    requires 1000 <= r <= 9999
    ensures |NatToDecimal(r)| == 4
  {
    assert Pow10(3) == 1000 && Pow10(4) == 10000 by {
      assert Pow10(1) == 10;
      assert Pow10(2) == 100;
    }
    DecimalLengthExact(r, 4);
  }

  predicate IsPrefix(p: string, s: string) {
    |p| <= |s| && s[..|p|] == p
  }

  /** Literal substring test: `needle` occurs somewhere in `hay`. This is the
      meaning of `LIKE '%needle%'` once the needle has no wildcard characters. */
  predicate Contains(hay: string, needle: string)
    decreases |hay|
  {
    IsPrefix(needle, hay) || (|hay| > 0 && Contains(hay[1..], needle))
  }

  /** `needle` occurs in `hay` starting at position `i`. */
  predicate OccursAt(hay: string, needle: string, i: nat) {
    i + |needle| <= |hay| && hay[i..i + |needle|] == needle
  }

  lemma {:induction false} ContainsAt(hay: string, needle: string, i: nat)
    requires OccursAt(hay, needle, i)
    ensures Contains(hay, needle)
    decreases i
  {
    if i > 0 {
      assert hay[1..][i - 1..i - 1 + |needle|] == hay[i..i + |needle|];
      ContainsAt(hay[1..], needle, i - 1);
    }
  }

  lemma {:induction false} ContainsWitness(hay: string, needle: string) returns (i: nat)
    requires Contains(hay, needle)
    ensures OccursAt(hay, needle, i)
    decreases |hay|
  {
    if IsPrefix(needle, hay) {
      i := 0;
    } else {
      var j := ContainsWitness(hay[1..], needle);
      assert hay[j + 1..j + 1 + |needle|] == hay[1..][j..j + |needle|];
      i := j + 1;
    }
  }

  /** `Contains` is exactly "occurs at some position". */
  lemma ContainsIff(hay: string, needle: string)
    ensures Contains(hay, needle) <==> exists i: nat :: OccursAt(hay, needle, i)
  {
    if Contains(hay, needle) {
      var i := ContainsWitness(hay, needle);
    }
    if exists i: nat :: OccursAt(hay, needle, i) {
      var i: nat :| OccursAt(hay, needle, i);
      ContainsAt(hay, needle, i);
    }
  }

  lemma EmptyNeedle(hay: string)
    ensures Contains(hay, "")
  {
    assert IsPrefix("", hay);
  }

  /** PHP `empty()` on a string value: true for "" and for "0". */
  predicate PhpEmpty(s: string) {
    s == "" || s == "0"
  }

  /** The characters PHP's `trim()` strips by default. */
  predicate IsTrimChar(c: char) {
    c == ' ' || c == '\t' || c == '\n' || c == '\r' || c == '\0' || c == '\U{000B}'
  }

  /** `trim(s) === ''`: the string holds nothing but trimmable characters. */
  predicate IsBlank(s: string) {
    forall i :: 0 <= i < |s| ==> IsTrimChar(s[i])
  }
}

=== FILE: utf8.dfy ===
/** The byte view of PHP strings. PHP strings are byte strings; user text
    arrives UTF-8 encoded, so `strlen` and any regular expression without the
    `u` modifier see the UTF-8 bytes, not the characters. */
module Utf8 {

  newtype byte = x: int | 0 <= x < 256

  /** UTF-8 encoding of one Unicode scalar value (RFC 3629, section 3). */
  function EncodeChar(c: char): (bs: seq<byte>)
    ensures 1 <= |bs| <= 4
    ensures |bs| == 1 <==> (c as int) < 0x80
    ensures |bs| == 1 ==> bs[0] as int == c as int
    ensures |bs| > 1 ==> 0xC0 <= bs[0]
    ensures forall k :: 1 <= k < |bs| ==> 0x80 <= bs[k] < 0xC0
  {
    var n := c as int;
    if n < 0x80 then
      [n as byte]
    else if n < 0x800 then
      [(0xC0 + n / 64) as byte, (0x80 + n % 64) as byte]
    else if n < 0x10000 then
      [(0xE0 + n / 4096) as byte, (0x80 + (n / 64) % 64) as byte, (0x80 + n % 64) as byte]
    else
      [(0xF0 + n / 262144) as byte, (0x80 + (n / 4096) % 64) as byte,
       (0x80 + (n / 64) % 64) as byte, (0x80 + n % 64) as byte]
  }

  function Encode(s: string): (bs: seq<byte>)
    ensures |s| <= |bs| <= 4 * |s|
    decreases |s|
  {
    if |s| == 0 then [] else EncodeChar(s[0]) + Encode(s[1..])
  }

  /** PHP `strlen`: the number of bytes of the UTF-8 encoding. */
  function StrLen(s: string): nat {
    |Encode(s)|
  }

  predicate IsAscii(s: string) {
    forall i :: 0 <= i < |s| ==> (s[i] as int) < 0x80
  }

  /** On ASCII text `strlen` counts characters. */
  lemma {:induction false} AsciiStrLen(s: string)
    requires IsAscii(s)
    ensures StrLen(s) == |s|
    decreases |s|
  {
    if |s| > 0 {
      assert IsAscii(s[1..]) by {
        forall i | 0 <= i < |s[1..]| ensures (s[1..][i] as int) < 0x80 {
          assert s[1..][i] == s[i + 1];
        }
      }
      AsciiStrLen(s[1..]);
    }
  }

  /** On ASCII text the encoding is the characters' own codes, one byte each. */
  lemma {:induction false} AsciiEncode(s: string)
    requires IsAscii(s)
    ensures |Encode(s)| == |s|
    ensures forall i :: 0 <= i < |s| ==> Encode(s)[i] as int == s[i] as int
    decreases |s|
  {
    if |s| > 0 {
      assert IsAscii(s[1..]) by {
        forall i | 0 <= i < |s[1..]| ensures (s[1..][i] as int) < 0x80 {
          assert s[1..][i] == s[i + 1];
        }
      }
      AsciiEncode(s[1..]);
      assert Encode(s) == [s[0] as int as byte] + Encode(s[1..]);
    }
  }

  /** Every byte of `Encode(s)` comes from the encoding of one character of `s`. */
  lemma {:induction false} EncodeBytes(s: string, P: byte -> bool)
    requires forall i :: 0 <= i < |s| ==> forall b :: b in EncodeChar(s[i]) ==> P(b)
    ensures forall b :: b in Encode(s) ==> P(b)
    decreases |s|
  {
    if |s| > 0 {
      EncodeBytes(s[1..], P);
    }
  }

  /** Conversely, a property of every byte of `Encode(s)` holds of every
      byte of every character's encoding. */
  lemma {:induction false} EncodeCharBytes(s: string, i: nat)
    requires i < |s|
    ensures forall b :: b in EncodeChar(s[i]) ==> b in Encode(s)
    decreases |s|
  {
    if i > 0 {
      EncodeCharBytes(s[1..], i - 1);
    }
  }
}

=== FILE: validation.dfy ===
/** The procedural input checks of `includes/validation.php`. PHP strings
    are byte strings, so `strlen` and `strpos` see the UTF-8 bytes. Form
    fields that were not sent arrive as null, which is `None` here. */
module Validation {
  import opened Text
  import Utf8

  const AT_BYTE: Utf8.byte := 0x40

  /** `validateEmail`: more than five bytes and an '@' byte somewhere. */
  function ValidateEmail(e: string): bool {
    Utf8.StrLen(e) > 5 && AT_BYTE in Utf8.Encode(e)
  }

  /** The '@' byte occurs in a UTF-8 text exactly where the '@' character
      does: every other character encodes to bytes other than 0x40. */
  lemma {:induction false} AtByteIffAtChar(s: string)
    ensures AT_BYTE in Utf8.Encode(s) <==> '@' in s
    decreases |s|
  {
    if |s| > 0 {
      AtByteIffAtChar(s[1..]);
      assert s == [s[0]] + s[1..];
      var bs := Utf8.EncodeChar(s[0]);
      if |bs| > 1 {
        assert forall k :: 0 <= k < |bs| ==> bs[k] != AT_BYTE;
      }
    }
  }

  /** An address passes exactly when its UTF-8 form is longer than five
      bytes and it contains '@'; nothing else about its shape is checked. */
  lemma EmailIff(e: string)
    ensures ValidateEmail(e) <==> Utf8.StrLen(e) > 5 && '@' in e
  {
    AtByteIffAtChar(e);
  }

  /** On ASCII text, more than five characters and an '@'. */
  lemma EmailAscii(e: string)
    requires Utf8.IsAscii(e)
    ensures ValidateEmail(e) <==> |e| > 5 && '@' in e
  {
    EmailIff(e);
    Utf8.AsciiStrLen(e);
  }

  /** The shortest real-looking address, "a@b.c", is refused. */
  lemma FiveByteEmailRejected()
    ensures !ValidateEmail("a@b.c")
  {
    Utf8.AsciiStrLen("a@b.c");
  }

  /** `validatePassword`: at least three bytes. */
  function ValidatePassword(p: string): bool {
    Utf8.StrLen(p) >= 3
  }

  /** Every text of three characters passes, and on ASCII text three
      characters is also necessary. */
  lemma PasswordBound(p: string)
    ensures |p| >= 3 ==> ValidatePassword(p)
    ensures Utf8.IsAscii(p) ==> (ValidatePassword(p) <==> |p| >= 3)
  {
    if Utf8.IsAscii(p) {
      Utf8.AsciiStrLen(p);
    }
  }

  /** A single Thai character is three bytes, so it is a valid password. */
  lemma OneThaiCharPassword()
    ensures ValidatePassword("\U{0E01}")
  {
    assert Utf8.Encode("\U{0E01}") == [0xE0, 0xB8, 0x81];
  }

  /** `validatePhone`: PHP's `!empty()`. */
  function ValidatePhone(phone: Option<string>): bool {
    phone.Some? && !PhpEmpty(phone.value)
  }

  /** `validateName`: `!empty()` and a positive byte length. */
  function ValidateName(name: Option<string>): bool {
    name.Some? && !PhpEmpty(name.value) && Utf8.StrLen(name.value) > 0
  }

  /** `notEmpty`: set, and loosely unequal to ''. Between two strings PHP 8
      compares as text, so only the empty string is equal to ''. */
  function NotEmpty(val: Option<string>): bool {
    val.Some? && val.value != ""
  }

  /** Among strings, the phone check refuses exactly "" and "0". */
  lemma PhoneRejectsExactly(s: string)
    ensures !ValidatePhone(Some(s)) <==> |s| == 0 || (|s| == 1 && s[0] == '0')
  {
    if |s| == 1 && s[0] == '0' {
      assert s == "0";
    }
  }

  /** The name check is the phone check: its length conjunct never decides. */
  lemma NameIsPhone(v: Option<string>)
    ensures ValidateName(v) == ValidatePhone(v)
  {
  }

  /** `notEmpty` and `validateName` disagree on exactly one input, "0". */
  lemma NotEmptyVersusName(v: Option<string>)
    ensures NotEmpty(v) != ValidateName(v) <==> v == Some("0")
  {
  }
}
